=== FILE: README.md ===
# Voxel map editor: block bookkeeping in Dafny

This project models the bookkeeping under a small Panda3D voxel-map editor. Three pieces are covered:

- **`Block`.** A cube with a key taken from a class-wide counter, a position, a stored colour, a displayed colour and a selected flag.
- **`MapManager`.** The list of blocks. It adds blocks, rejecting a position that is already occupied. It selects and deselects by key, deletes the selected block and clears the map. It generates the basic, random and matrix-described maps, and saves and loads a map as a count-prefixed run of (position, colour) records.
- **`Editor`.** The state machine behind the crosshair. It tracks a pending position for a new block, plus the key and node of the block under the crosshair. It is driven by frames, clicks and the edit-mode switch.

Everything is a pure state transformer over immutable records:

| file | module | models |
|---|---|---|
| `types.dfy` | `Types` | `Option`, integer positions, RGBA colours |
| `keys.dfy` | `Keys` | `str(index)`: the decimal key text and its injectivity |
| `blocks.dfy` | `Blocks` | `block.py` |
| `mapmanager.dfy` | `MapManager` | `mapmanager.py`: state, `addBlock`, `setColor`, selection, deletion, `clearAll` |
| `mapgen.dfy` | `MapGen` | `basicMap`, `generateRandomMap`, `createMap` |
| `mapfile.dfy` | `MapFile` | `saveMap`, `loadMap` over an abstract sequence of pickled values |
| `editor.dfy` | `Editor` | `editor.py` |

How the model represents the program:

- **Keys and the counter.** A block is identified by `id`, the value of `Block.current_index` when it was built, and its key is `DecimalString(id)`. Only the manager builds blocks, so the class counter is a field of the manager state.
- **`selected_block`.** This object reference becomes `Option<id>`.
- **The invariant `MapManager.Valid`.** It is kept by every operation. It says:
  - ids are below the counter and pairwise distinct;
  - no two blocks share a position;
  - a flagged block is the one `selected_block` names, and the named block is in the list.

  From these it follows that at most one block is flagged.
- **Randomness becomes parameters.** `getRandomColor` is the `random` colour of an `addBlock` request. The `randint` heights of `generateRandomMap` are `Draw`s passed in.
- **Collision hit.** The nearest hit of the crosshair ray is a frame's `Option<Hit(key, normal)>`.
- **Quirk kept.** `deselectAllBlocks` clears every flag but keeps `selected_block`, as `deselectAllBlocks` in mapmanager.py does. The consequence is stated by `MapManager.SetColorAfterDeselect`.

## Model

| member | source | states |
|---|---|---|
| Keys.DecimalString | block.py:16 | the key is the decimal numeral of the counter: non-empty, last digit `n % 10`, a single digit exactly below 10 |
| Keys.DecimalStringDigits | block.py:16 | every character of a key is a decimal digit |
| Keys.DecimalStringInjective | block.py:16-18 | different counter values give different key strings |
| Types.Offset | editor.py:124 | the pending position `selected_position + normal` equals the hit block's position exactly when the normal is zero, so a surface normal always points to a different cell |
| Blocks.Key | block.py:44-48 | the key tagged on the collision node and returned by `getKey` is a non-empty numeral ending in the counter's last digit, one character long exactly below 10 |
| Blocks.KeysDistinct | block.py:16-18 | blocks built with different counter values carry different keys |
| Blocks.NewBlock | block.py:14-35 | a new block's key is the current counter, it has the given position and colour, displays that colour and is unselected |
| Blocks.DefaultBlock | block.py:14 | the constructor defaults give position (0,0,0) and colour (1,1,1,1), shown as stored, unselected |
| Blocks.SetSelected | block.py:63-73 | after the call the flag equals the argument; an unchanged status changes nothing; unselected→selected shows the highlight; selected→unselected shows the stored colour; key, position and stored colour never change |
| Blocks.Deselect | block.py:63-73 | `setSelected(False)` leaves an unselected block alone and restores a selected one's stored colour |
| Blocks.SetSelectedIdempotent | block.py:65 | repeating a status change is a no-op, whatever highlight is passed |
| Blocks.SelectThenDeselectRestores | block.py:66-73 | selecting and then deselecting shows the stored colour again; from unselected it restores the block up to the displayed colour |
| Blocks.UpdateColor | block.py:76-77 | only the displayed colour changes; the stored colour (`getColor`) and the flag (`getSelected`) stay |
| MapManager.Init | mapmanager.py:27-35 | a new manager has no blocks, no selected block, no current colour, the grey select colour (0.15, 0.15, 0.15, 0.9) of `getSelectColor(None)`, keeps the class counter where it stands, and is valid |
| MapManager.ValidAtMostOneSelected | mapmanager.py:133-153 | under the invariant, at most one block carries the selected flag |
| MapManager.SelectColorFor | mapmanager.py:14-21 | the select colour has alpha 0.9; with no current colour it is grey 0.15; otherwise each channel is 0.4 of the current colour's, so a colour in [0,1] gives channels in [0,0.4] |
| MapManager.ChooseColor | mapmanager.py:46-53 | the explicit colour wins; without one the current colour is used; only when both are absent is the random colour used |
| MapManager.PositionTaken | mapmanager.py:40-43 | the scan answers true exactly when some block stands at the position |
| MapManager.AddBlock | mapmanager.py:38-58 | an occupied position leaves the manager unchanged; otherwise one block is appended with that position and id equal to the current counter (key `str(counter)`), unselected, the earlier blocks untouched and the counter advanced; its colour is the explicit one, else the current one, else the random one |
| MapManager.AddBlockKeepsValid | mapmanager.py:38-58 | adding keeps positions and ids distinct and the selection consistent |
| MapManager.SetColor | mapmanager.py:61-69 | the current colour and its select colour are set; only the block `selected_block` names is repainted, with the select colour; nothing else changes |
| MapManager.SetColorKeepsValid | mapmanager.py:61-69 | recolouring keeps the invariant |
| MapManager.ClearAll | mapmanager.py:173-182 | no blocks and no selected block remain, and the result is valid |
| MapManager.DeselectAllBlocks | mapmanager.py:128-130 | no block is flagged; unflagged blocks are unchanged; previously flagged blocks show their stored colour; `selected_block`, the current colour, the select colour and the counter are kept; validity is preserved |
| MapManager.DeselectAllBlocksIdempotent | mapmanager.py:128-130 | deselecting twice equals deselecting once |
| MapManager.SetColorAfterDeselect | mapmanager.py:61-69 | after deselecting, `setColor` still paints the select colour on the block `selected_block` names, although it is unflagged |
| MapManager.SelectBlock | mapmanager.py:133-153 | exactly the blocks whose key matches are flagged; a newly flagged match shows the select colour and an already flagged match is unchanged; an unflagged non-match is unchanged and a flagged non-match shows its stored colour again; a node is returned iff some key matches; the returned block is in the list, selected, with that key, and is what `selected_block` names |
| MapManager.LastWithKey | mapmanager.py:137-141 | `selected_block` ends on the last block whose key matches: none iff no key matches, otherwise a matching index with no match after it |
| MapManager.SelectBlockKeepsValid | mapmanager.py:133-153 | selecting keeps the invariant and leaves at most one block flagged |
| MapManager.SelectExisting | mapmanager.py:133-153 | in a valid map, selecting by a block's key flags that block and no other, and returns it |
| MapManager.FirstSelected | mapmanager.py:162-170 | finds the first flagged index, or reports that none is flagged |
| MapManager.DeleteSelectedBlock | mapmanager.py:156-170 | with no selected block nothing changes; otherwise `selected_block` is cleared and only the first flagged block is removed, the rest keeping their order; the length drops by at most one |
| MapManager.DeleteSelectedBlockKeepsValid | mapmanager.py:156-170 | deleting keeps the invariant and, when a block was selected, leaves none flagged |
| MapGen.AddAll | mapmanager.py:76-79 | a run of `addBlock` calls keeps the existing blocks as a prefix, adds at most one block per call and keeps colour and selection |
| MapGen.AddAllKeepsValid | mapmanager.py:38-58 | a run of `addBlock` calls keeps the invariant |
| MapGen.AddAllFresh | mapmanager.py:38-58 | requests at distinct, free positions are all accepted, appending exactly the blocks they describe, and advance the counter by their number |
| MapGen.BasicRequestsCover | mapmanager.py:76-79 | the nested loops issue exactly one white request for each cell (i, j, -2) with -7 <= i, j <= 7, at index (i+7)*15+(j+7), and none outside that square |
| MapGen.BasicMap | mapmanager.py:72-79 | the basic map is valid, has no selected block and keeps the current colour and the select colour |
| MapGen.BasicMapPlaced | mapmanager.py:72-79 | all 225 floor requests are accepted, the map is exactly their blocks, and the class counter advances by 225 |
| MapGen.BasicMapBlocks | mapmanager.py:72-79 | block k is the white, unselected block at (k/15-7, k%15-7, -2) |
| MapGen.BasicMapShape | mapmanager.py:72-79 | the basic map is exactly the 225 blocks (i, j, -2) for -7 <= i, j <= 7, row by row |
| MapGen.EdgePrefix | mapmanager.py:93-98 | the second loop's requests cover exactly the cells it does not skip, in loop order, each at its drawn height |
| MapGen.FloorRequestsCells | mapmanager.py:87-90 | the first loop issues, for cell k of the 17 x 17 grid in loop order, one request standing over that cell at the drawn height with no explicit colour |
| MapGen.GenerateRandomMap | mapmanager.py:82-98 | the random map is valid, has no selected block and keeps the current colour and the select colour |
| MapGen.GenerateRandomMapPlaced | mapmanager.py:82-98 | with heights in the `randint` ranges, every floor and edge request is accepted, so the map is exactly the blocks those requests describe, in loop order, and the class counter advances by one per request |
| MapGen.RandomRequestsDistinct | mapmanager.py:82-98 | with heights in the `randint` ranges, floor and edge requests never collide |
| MapGen.GenerateRandomMapShape | mapmanager.py:82-98 | 289 floor blocks come first, at (i, j, drawn height in [-4,-2]) with the current or random colour; every edge cell then has a block at its drawn height; later blocks lie outside the inner 9x9 square with z in [-1,6] |
| MapGen.RowPrefix | mapmanager.py:114-125 | the innermost loop over x issues one request per cell of the row whose symbol names a colour, at the shifted position with Y inverted, in order of x |
| MapGen.LayerPrefix | mapmanager.py:113-125 | the loop over y issues the rows' requests for one layer, all at height z+shift.z, each truthy cell covered, in loop order |
| MapGen.MatrixPrefix | mapmanager.py:111-125 | the loops issue one request per cell whose symbol names a colour, at the shifted position with Y inverted, in loop order |
| MapGen.CreateMap | mapmanager.py:107-125 | the created map is valid, has no selected block and keeps the current colour and the select colour |
| MapGen.CreateMapPlaced | mapmanager.py:107-125 | every request of `createMap` is accepted, the map is exactly their blocks, and the class counter advances by one per request |
| MapGen.CreateMapBlocksFromCells | mapmanager.py:116-125 | every block comes from a matrix cell whose symbol is in `colors` with a non-None value, has that colour and is unselected |
| MapGen.CreateMapOccupiedIffTruthy | mapmanager.py:112-125 | a cell's position (x+shift.x, -y-shift.y, z+shift.z) holds a block iff its symbol maps to a colour; missing or None symbols leave it empty |
| MapFile.EncodeRecords | mapmanager.py:198-202 | the records after the count hold two values per block |
| MapFile.EncodeRecordsAt | mapmanager.py:198-202 | record i of the encoding is block i's position followed by its colour |
| MapFile.SaveMap | mapmanager.py:186-205 | an empty map writes nothing; otherwise the file is the count and then each block's position and colour, in list order |
| MapFile.LoadRecords | mapmanager.py:221-228 | reading records only appends blocks, keeps colour and selection, and on success adds at most the count |
| MapFile.LoadMap | mapmanager.py:211-228 | the map is cleared first and the current and select colours are kept; a missing file, an empty file or a non-numeric count leaves it empty and raises; success needs a numeric count |
| MapFile.LoadRecordsKeepsValid | mapmanager.py:221-228 | each record read, accepted, skipped or failing, keeps the invariant |
| MapFile.LoadMapKeepsValid | mapmanager.py:211-228 | loading, whether it succeeds or raises, leaves a valid map |
| MapFile.LoadEncoded | mapmanager.py:221-228 | reading encoded records replays one explicit-colour `addBlock` per record |
| MapFile.SaveLoadRoundTrip | mapmanager.py:186-228 | saving a non-empty valid map and loading it back succeeds and reproduces the same sequence of (position, colour) pairs |
| MapFile.SaveDependsOnEntries | mapmanager.py:186-205 | the file written depends only on the (position, colour) pairs |
| MapFile.LoadSaveRoundTrip | mapmanager.py:186-228 | saving the loaded map writes the same file again |
| Editor.Init | editor.py:12-44 | the editor starts in edit mode with no pending position, key or node |
| Editor.ResetSelectedBlock | editor.py:73-76 | the pending position, key and node become None; the map and mode stay |
| Editor.SetEditMode | editor.py:58-70 | switching on resets the selection fields and leaves the map; switching off deselects every block and keeps the fields |
| Editor.AddBlock | editor.py:79-85 | with no pending position nothing changes; otherwise a block is added there with the manager's colour choice and the selection fields reset |
| Editor.DelBlock | editor.py:88-92 | always delegates to `deleteSelectedBlock` and resets the selection fields; at most one block disappears |
| Editor.TestBlocksSelection | editor.py:95-132 | no hit deselects all and resets; a hit remembers its key and calls `selectBlock` only when the key changed; a remembered node makes the pending position its position plus the normal |
| Editor.HitSelectsBlock | editor.py:110-124 | a frame hitting a block under a new key selects exactly that block and sets the pending position beside the hit face |
| Editor.TestBlocksSelectionIdempotent | editor.py:110-115 | a second frame with the same hit changes nothing |
| Editor.Step | editor.py:47-70 | a frame runs `testBlocksSelection` exactly when edit mode is on; a left click runs `addBlock`, a right click `delBlock` (clearing the selection fields) and a mode switch `setEditMode`, in either mode; only a mode switch changes the mode |
| Editor.TestBlocksSelectionKeepsInv | editor.py:95-132 | a frame, with or without a hit, keeps the map valid and a remembered node in the map under the remembered key |
| Editor.Run | editor.py:47-55 | the event loop; without a mode switch the mode never changes, and with edit mode off a run of frames changes nothing |
| Editor.RunConcat | editor.py:47-55 | handling two batches of events one after the other is handling their concatenation |
| Editor.IdleFramesIgnored | editor.py:58-68 | once edit mode is off the selection task is removed, so frames arriving then can be dropped from the event stream without changing the outcome |
| Editor.StepKeepsInv | editor.py:58-132 | every event keeps the map valid and a remembered node present in the map under the remembered key |
| Editor.RunKeepsInv | editor.py:47-132 | any sequence of events keeps that invariant, so at most one block is ever flagged |
| Editor.ClickAfterModeOff | editor.py:52-85 | clicks are not gated by mode: after switching edit mode off, a left click still adds at the pending position |

## Left out

- Engine work is not modelled: model and texture loading, reparenting, collision masks and tags, `removeNode`, the `CollisionTraverser` and the `taskMgr` scheduling. Blocks are records, removal is sequence deletion, and the repeating selection callback becomes the event sequence of `Editor.Run`.
- `controller.py` and `main.py` are not part of this model. This covers camera, gravity, jumping, key bindings, on-screen images, and `changeColor(None)`, which never calls `setColor`.
- File I/O and the pickle format are not modelled. A file is an optional sequence of `MapFile.Value`s, and `print` calls are dropped.
- MapFile.LoadMap: the exceptions of pickling and of the engine are abstracted.
  - Every record that is not a position followed by a colour becomes `BadRecord`, raised after the block constructor has advanced the counter.
  - A position whose cell is already taken is skipped before its colour is looked at.
- MapManager.SelectColorFor: `getSelectColor` is computed in exact reals, so float rounding of the 0.4 scaling is not modelled.
- MapManager.AddBlock: `getRandomColor`'s float arithmetic is not modelled. The random colour is a parameter.
- MapManager.AddBlock: positions are integer triples. The `LPoint3f`-against-tuple comparison is exact equality, and float positions are not modelled.
- Editor.TestBlocksSelection: the surface normal is an integer triple, which matches the axis-aligned faces of a unit cube. The ray cast itself is the `hit` parameter.
- MapGen.GenerateRandomMapShape: the number of edge cells (208) is not stated. Their coverage and bounds are.
- MapGen.BasicMap: each request carries a fallback colour (white) that is never used, because every basic-map request names white.
- Editor.Inv: the map operations `main.py` triggers directly (`basicMap`, `generateRandomMap`, `loadMap`, `setColor`) are not editor events. The editor invariant is stated over the editor's own events.

=== FILE: blocks.dfy ===
/** One placed voxel block: its key, position, stored colour and selection state. */
module Blocks {
  import opened Types
  import Keys

  /** Highlight colour `setSelected` uses when its caller gives none. */
  const DefaultHighlight: Color := Rgba(0.0, 0.0, 1.0, 1.0)

  /** A block. `id` is the class counter value at construction, `color` the stored
      colour `getColor` returns, `shown` the colour the engine node displays. */
  datatype Block = Block(id: nat, pos: Pos, color: Color, shown: Color, selected: bool)

  /** The key the block tags its collision node with. */
  function Key(b: Block): (k: string)
    ensures 1 <= |k| && k[|k| - 1] == Keys.Digit(b.id % 10)
    ensures |k| == 1 <==> b.id < 10
  {
    Keys.DecimalString(b.id)
  }

  /** Blocks built with different counter values carry different keys. */
  lemma KeysDistinct(a: Block, b: Block)
    requires a.id != b.id
    ensures Key(a) != Key(b)
  {
    if Key(a) == Key(b) {
      Keys.DecimalStringInjective(a.id, b.id);
    }
  }

  /** The block built when the class counter stands at `counter`; the caller advances it. */
  function NewBlock(counter: nat, pos: Pos, color: Color): (b: Block)
    ensures Key(b) == Keys.DecimalString(counter)
    ensures b.pos == pos && b.color == color
    ensures b.shown == b.color
    ensures !b.selected
  {
    Block(counter, pos, color, color, false)
  }

  /** The constructor with its default arguments. */
  function DefaultBlock(counter: nat): (b: Block)
    ensures b.pos == Pos(0, 0, 0) && b.color == White && b.shown == White
    ensures !b.selected
  {
    NewBlock(counter, Pos(0, 0, 0), White)
  }

  /** Sets the selection status; only a change of status touches the displayed colour. */
  function SetSelected(b: Block, selected: bool, highlight: Color): (r: Block)
    ensures r.selected == selected
    ensures r.id == b.id && r.pos == b.pos && r.color == b.color
    ensures b.selected == selected ==> r == b
    ensures !b.selected && selected ==> r.shown == highlight
    ensures b.selected && !selected ==> r.shown == b.color
  {
    if b.selected != selected then
      b.(selected := selected, shown := if selected then highlight else b.color)
    else
      b
  }

  /** `setSelected(False)`: the default highlight argument is never shown. */
  function Deselect(b: Block): (r: Block)
    ensures !r.selected
    ensures r.id == b.id && r.pos == b.pos && r.color == b.color
    ensures !b.selected ==> r == b
    ensures b.selected ==> r.shown == b.color
  {
    SetSelected(b, false, DefaultHighlight)
  }

  /** Repeating a status change does nothing more. */
  lemma SetSelectedIdempotent(b: Block, s: bool, c: Color, c': Color)
    ensures SetSelected(SetSelected(b, s, c), s, c') == SetSelected(b, s, c)
  {
  }

  /** Selecting and then deselecting shows the stored colour again. */
  lemma SelectThenDeselectRestores(b: Block, c: Color)
    ensures SetSelected(SetSelected(b, true, c), false, DefaultHighlight).shown == b.color
    ensures !b.selected ==> SetSelected(SetSelected(b, true, c), false, DefaultHighlight) == b.(shown := b.color)
  {
  }

  /** Changes only the displayed colour; the stored colour and the flag stay. */
  function UpdateColor(b: Block, c: Color): (r: Block)
    ensures r.shown == c
    ensures r.id == b.id && r.pos == b.pos && r.color == b.color && r.selected == b.selected
  {
    b.(shown := c)
  }
}

=== FILE: editor.dfy ===
/** editor.py: the selection state machine of the block editor. The engine's collision ray
    is abstracted to its nearest hit, passed in as a parameter of each frame. */
module Editor {
  import opened Types
  import opened Blocks
  import MapManager

  /** The nearest collision: the `key` tag of the block hit and the surface normal there. */
  datatype Hit = Hit(key: string, normal: Pos)

  /** `Editor`'s fields together with the map it edits. The node of the selected block
      is the block record itself. */
  datatype EditorState = EditorState(
    manager: MapManager.Manager,
    editMode: bool,
    newPosition: Option<Pos>,
    selectedKey: Option<string>,
    selectedNode: Option<Block>)

  /** No pending position and nothing remembered as selected. */
  predicate Cleared(e: EditorState) {
    e.newPosition.None? && e.selectedKey.None? && e.selectedNode.None?
  }

  /** The block `n` (a snapshot taken when it was selected) is still in the list. */
  ghost predicate NodeInMap(blocks: seq<Block>, n: Block) {
    exists i :: 0 <= i < |blocks| && blocks[i].id == n.id && blocks[i].pos == n.pos
  }

  /** What the editor keeps true: a valid map, and a remembered node that carries the
      remembered key and is still in the map. */
  ghost predicate Inv(e: EditorState) {
    && MapManager.Valid(e.manager)
    && (e.selectedNode.Some? ==>
          e.selectedKey == Some(Key(e.selectedNode.value))
          && NodeInMap(e.manager.blocks, e.selectedNode.value))
  }

  /** The constructor: edit mode on, nothing selected, no pending position. */
  function Init(m: MapManager.Manager): (e: EditorState)
    ensures e.manager == m && e.editMode && Cleared(e)
    ensures MapManager.Valid(m) ==> Inv(e)
  {
    EditorState(m, true, None, None, None)
  }

  /** `resetSelectedBlock`: forgets the pending position, key and node; nothing else changes. */
  function ResetSelectedBlock(e: EditorState): (r: EditorState)
    ensures Cleared(r)
    ensures r.manager == e.manager && r.editMode == e.editMode
    ensures MapManager.Valid(e.manager) ==> Inv(r)
  {
    e.(newPosition := None, selectedKey := None, selectedNode := None)
  }

  /** `setEditMode`: switching on resets the selection fields and leaves the map alone;
      switching off deselects every block but keeps the editor's fields. */
  function SetEditMode(e: EditorState, mode: bool): (r: EditorState)
    ensures r.editMode == mode
    ensures mode ==> Cleared(r) && r.manager == e.manager
    ensures !mode ==>
      && r.manager == MapManager.DeselectAllBlocks(e.manager)
      && r.newPosition == e.newPosition && r.selectedKey == e.selectedKey
      && r.selectedNode == e.selectedNode
    ensures !mode ==> forall i :: 0 <= i < |r.manager.blocks| ==> !r.manager.blocks[i].selected
  {
    if mode then ResetSelectedBlock(e.(editMode := true))
    else e.(editMode := false, manager := MapManager.DeselectAllBlocks(e.manager))
  }

  /** `addBlock` (left click): adds a block at the pending position, if there is one, with
      the manager's colour choice, then resets the selection fields. */
  function AddBlock(e: EditorState, random: Color): (r: EditorState)
    ensures e.newPosition.None? ==> r == e
    ensures e.newPosition.Some? ==>
      && Cleared(r) && r.editMode == e.editMode
      && r.manager == MapManager.AddBlock(e.manager, e.newPosition.value, None, random)
  {
    match e.newPosition
    case None => e
    case Some(p) =>
      ResetSelectedBlock(e.(manager := MapManager.AddBlock(e.manager, p, None, random)))
  }

  /** `delBlock` (right click): deletes the manager's selected block and resets the
      selection fields, whether or not anything was deleted. */
  function DelBlock(e: EditorState): (r: EditorState)
    ensures Cleared(r) && r.editMode == e.editMode
    ensures r.manager == MapManager.DeleteSelectedBlock(e.manager)
    ensures |e.manager.blocks| - 1 <= |r.manager.blocks| <= |e.manager.blocks|
  {
    ResetSelectedBlock(e.(manager := MapManager.DeleteSelectedBlock(e.manager)))
  }

  /** `testBlocksSelection`, one frame. With no hit every block is deselected and the
      selection fields reset. With a hit, the manager selects by the hit key only when it
      differs from the remembered key; whenever a node is remembered, the pending position
      becomes its position plus the surface normal. */
  function TestBlocksSelection(e: EditorState, hit: Option<Hit>): (r: EditorState)
    ensures r.editMode == e.editMode
    ensures hit.None? ==> Cleared(r) && r.manager == MapManager.DeselectAllBlocks(e.manager)
    ensures hit.Some? ==> r.selectedKey == Some(hit.value.key)
    ensures hit.Some? && e.selectedKey == Some(hit.value.key) ==>
      r.manager == e.manager && r.selectedNode == e.selectedNode
    ensures hit.Some? && e.selectedKey != Some(hit.value.key) ==>
      var sel := MapManager.SelectBlock(e.manager, hit.value.key);
      r.manager == sel.0 && r.selectedNode == sel.1
    ensures hit.Some? && r.selectedNode.Some? ==>
      r.newPosition == Some(Offset(r.selectedNode.value.pos, hit.value.normal))
    ensures hit.Some? && r.selectedNode.None? ==> r.newPosition == e.newPosition
  {
    match hit
    case None =>
      ResetSelectedBlock(e.(manager := MapManager.DeselectAllBlocks(e.manager)))
    case Some(h) =>
      var e' :=
        if Some(h.key) != e.selectedKey then
          var sel := MapManager.SelectBlock(e.manager, h.key);
          e.(manager := sel.0, selectedKey := Some(h.key), selectedNode := sel.1)
        else e;
      match e'.selectedNode
      case Some(n) => e'.(newPosition := Some(Offset(n.pos, h.normal)))
      case None => e'
  }

  /** A frame that hits a block selects exactly that block in the map and makes the cell
      beside the hit face the pending position. */
  lemma HitSelectsBlock(e: EditorState, h: Hit, i: nat)
    requires Inv(e) && e.selectedKey != Some(h.key)
    requires i < |e.manager.blocks| && Key(e.manager.blocks[i]) == h.key
    ensures var r := TestBlocksSelection(e, Some(h));
      && r.selectedNode.Some? && r.selectedNode.value.id == e.manager.blocks[i].id
      && r.newPosition == Some(Offset(e.manager.blocks[i].pos, h.normal))
      && r.manager.selectedBlock == Some(e.manager.blocks[i].id)
      && forall j :: 0 <= j < |r.manager.blocks| ==>
           (r.manager.blocks[j].selected <==> j == i)
  {
    MapManager.SelectExisting(e.manager, i);
  }

  /** Repeating a frame with the same hit changes nothing more: the manager is asked to
      select only when the key changes. */
  lemma {:induction false} TestBlocksSelectionIdempotent(e: EditorState, hit: Option<Hit>)
    ensures TestBlocksSelection(TestBlocksSelection(e, hit), hit) == TestBlocksSelection(e, hit)
  {
    if hit.None? {
      MapManager.DeselectAllBlocksIdempotent(e.manager);
    }
  }

  /** The editor's input events. A frame runs only while edit mode is on, since switching
      it off removes the selection task; clicks are handled in either mode. */
  datatype Event =
    | Frame(hit: Option<Hit>)
    | LeftClick(random: Color)
    | RightClick
    | SetMode(mode: bool)

  function Step(e: EditorState, ev: Event): (r: EditorState)
    ensures ev.Frame? && !e.editMode ==> r == e
    ensures ev.Frame? && e.editMode ==> r == TestBlocksSelection(e, ev.hit)
    ensures ev.LeftClick? ==> r == AddBlock(e, ev.random)
    ensures ev.RightClick? ==> r == DelBlock(e) && Cleared(r)
    ensures ev.SetMode? ==> r == SetEditMode(e, ev.mode)
    ensures !ev.SetMode? ==> r.editMode == e.editMode
  {
    match ev
    case Frame(hit) => if e.editMode then TestBlocksSelection(e, hit) else e
    case LeftClick(random) => AddBlock(e, random)
    case RightClick => DelBlock(e)
    case SetMode(mode) => SetEditMode(e, mode)
  }

  /** The event loop: the events, handled one after another. The mode changes only
      through `SetMode`, so with edit mode off and no `SetMode` event, no frame runs. */
  function Run(e: EditorState, evs: seq<Event>): (r: EditorState)
    ensures (forall i :: 0 <= i < |evs| ==> !evs[i].SetMode?) ==> r.editMode == e.editMode
    ensures (forall i :: 0 <= i < |evs| ==> evs[i].Frame?) && !e.editMode ==> r == e
    decreases |evs|
  {
    if |evs| == 0 then e
    else
      var r := Run(Step(e, evs[0]), evs[1..]);
      assert forall i :: 1 <= i < |evs| ==> evs[1..][i - 1] == evs[i];
      r
  }

  /** Handling two batches of events is handling their concatenation. */
  lemma {:induction false} RunConcat(e: EditorState, a: seq<Event>, b: seq<Event>)
    ensures Run(e, a + b) == Run(Run(e, a), b)
    decreases |a|
  {
    if |a| > 0 {
      assert (a + b)[0] == a[0] && (a + b)[1..] == a[1..] + b;
      RunConcat(Step(e, a[0]), a[1..], b);
    } else {
      assert a + b == b;
    }
  }

  /** With edit mode off the selection task is removed, so frames arriving then are
      ignored: they can be dropped from anywhere in the event stream. */
  lemma IdleFramesIgnored(e: EditorState, a: seq<Event>, f: seq<Event>, b: seq<Event>)
    requires !Run(e, a).editMode
    requires forall i :: 0 <= i < |f| ==> f[i].Frame?
    ensures Run(e, a + f + b) == Run(e, a + b)
  {
    RunConcat(e, a + f, b);
    RunConcat(e, a, f);
    RunConcat(e, a, b);
  }

  lemma TestBlocksSelectionKeepsInv(e: EditorState, hit: Option<Hit>)
    requires Inv(e)
    ensures Inv(TestBlocksSelection(e, hit))
  {
    match hit
    case None =>
    case Some(h) =>
      if Some(h.key) != e.selectedKey {
        var sel := MapManager.SelectBlock(e.manager, h.key);
        MapManager.SelectBlockKeepsValid(e.manager, h.key);
        if sel.1.Some? {
          var k :| 0 <= k < |sel.0.blocks| && sel.0.blocks[k] == sel.1.value;
          assert NodeInMap(sel.0.blocks, sel.1.value);
        }
      }
  }

  /** Every event keeps the editor invariant. */
  lemma StepKeepsInv(e: EditorState, ev: Event)
    requires Inv(e)
    ensures Inv(Step(e, ev))
  {
    match ev
    case Frame(hit) =>
      if e.editMode {
        TestBlocksSelectionKeepsInv(e, hit);
      }
    case LeftClick(random) =>
      if e.newPosition.Some? {
        MapManager.AddBlockKeepsValid(e.manager, e.newPosition.value, None, random);
      }
    case RightClick =>
      MapManager.DeleteSelectedBlockKeepsValid(e.manager);
    case SetMode(mode) =>
      if !mode {
        var m' := MapManager.DeselectAllBlocks(e.manager);
        if e.selectedNode.Some? {
          var n := e.selectedNode.value;
          var i :| 0 <= i < |e.manager.blocks| && e.manager.blocks[i].id == n.id
            && e.manager.blocks[i].pos == n.pos;
          assert m'.blocks[i].id == n.id && m'.blocks[i].pos == n.pos;
        }
      }
  }

  /** Any sequence of events keeps the invariant: positions stay distinct, at most one
      block is selected, and a remembered node is in the map under the remembered key. */
  lemma {:induction false} RunKeepsInv(e: EditorState, evs: seq<Event>)
    requires Inv(e)
    ensures Inv(Run(e, evs))
    ensures MapManager.AtMostOneSelected(Run(e, evs).manager.blocks)
    decreases |evs|
  {
    if |evs| == 0 {
      MapManager.ValidAtMostOneSelected(e.manager);
    } else {
      StepKeepsInv(e, evs[0]);
      RunKeepsInv(Step(e, evs[0]), evs[1..]);
    }
  }

  /** Clicks are not gated by the mode: after edit mode is switched off, a left click
      still adds a block at the position that was pending. */
  lemma ClickAfterModeOff(e: EditorState, random: Color)
    requires e.newPosition.Some?
    ensures Step(Step(e, SetMode(false)), LeftClick(random)).manager
         == MapManager.AddBlock(MapManager.DeselectAllBlocks(e.manager),
                                e.newPosition.value, None, random)
  {
  }
}

=== FILE: keys.dfy ===
/** Block keys: the decimal text of the class-wide block counter (`str(index)`). */
module Keys {

  function Digit(d: nat): (c: char)
    requires d < 10
    ensures '0' <= c <= '9'
  {
    ('0' as int + d) as char
  }

  /** The decimal numeral of `n` without leading zeros, as Python's `str` prints it. */
  function DecimalString(n: nat): (s: string)
    ensures 1 <= |s|
    ensures |s| == 1 <==> n < 10
    ensures s[|s| - 1] == Digit(n % 10)
    decreases n
  {
    if n < 10 then [Digit(n)] else DecimalString(n / 10) + [Digit(n % 10)]
  }

  /** Distinct counter values give distinct keys, so keys identify blocks. */
  lemma {:induction false} DecimalStringInjective(n: nat, m: nat)
    requires DecimalString(n) == DecimalString(m)
    ensures n == m
    decreases n
  {
    var s := DecimalString(n);
    assert Digit(n % 10) == Digit(m % 10);
    assert n % 10 == m % 10;
    if n >= 10 {
      assert m >= 10;
      assert DecimalString(n / 10) == s[..|s| - 1] == DecimalString(m / 10);
      DecimalStringInjective(n / 10, m / 10);
    }
  }

  /** Every character of a key is a decimal digit. */
  lemma {:induction false} DecimalStringDigits(n: nat)
    ensures forall i :: 0 <= i < |DecimalString(n)| ==> '0' <= DecimalString(n)[i] <= '9'
    decreases n
  {
    if n >= 10 {
      DecimalStringDigits(n / 10);
    }
  }
}

=== FILE: mapfile.dfy ===
/** `saveMap` and `loadMap`: the map as a count followed by (position, colour) records.
    The file is a sequence of pickled values; `None` stands for a file that does not exist. */
module MapFile {
  import opened Types
  import opened Blocks
  import opened MapManager
  import opened MapGen

  /** One pickled object. */
  datatype Value = Count(n: int) | PosValue(p: Pos) | ColorValue(c: Color)

  /** The exception `loadMap` lets escape. */
  datatype LoadError =
    | FileNotFound   // `open` fails
    | EndOfFile      // `pickle.load` runs past the end
    | BadCount       // the first value is not a number, so `range` raises
    | BadRecord      // a record is not a position and a colour, so the block constructor raises

  /** The manager after `loadMap`, and the exception it raised, if any. The map is cleared
      before the file is opened, so a failed load leaves a cleared or partly loaded map. */
  datatype LoadOutcome = LoadOutcome(state: Manager, error: Option<LoadError>)

  /** The (position, colour) pairs a map consists of, in list order. */
  function Entries(blocks: seq<Block>): (es: seq<(Pos, Color)>)
    ensures |es| == |blocks|
  {
    seq(|blocks|, i requires 0 <= i < |blocks| => (blocks[i].pos, blocks[i].color))
  }

  /** The records `saveMap` writes after the count. */
  function EncodeRecords(blocks: seq<Block>): (vs: seq<Value>)
    ensures |vs| == 2 * |blocks|
  {
    if |blocks| == 0 then []
    else [PosValue(blocks[0].pos), ColorValue(blocks[0].color)] + EncodeRecords(blocks[1..])
  }

  /** Record i of the encoding is block i's position followed by its colour. */
  lemma {:induction false} EncodeRecordsAt(blocks: seq<Block>, i: nat)
    requires i < |blocks|
    ensures EncodeRecords(blocks)[2 * i] == PosValue(blocks[i].pos)
    ensures EncodeRecords(blocks)[2 * i + 1] == ColorValue(blocks[i].color)
    decreases i
  {
    if i > 0 {
      EncodeRecordsAt(blocks[1..], i - 1);
      assert blocks[1..][i - 1] == blocks[i];
    }
  }

  lemma EncodeRecordsFields(blocks: seq<Block>)
    ensures forall i :: 0 <= i < |blocks| ==>
      EncodeRecords(blocks)[2 * i] == PosValue(blocks[i].pos)
      && EncodeRecords(blocks)[2 * i + 1] == ColorValue(blocks[i].color)
  {
    forall i | 0 <= i < |blocks|
      ensures EncodeRecords(blocks)[2 * i] == PosValue(blocks[i].pos)
      ensures EncodeRecords(blocks)[2 * i + 1] == ColorValue(blocks[i].color)
    {
      EncodeRecordsAt(blocks, i);
    }
  }

  /** `saveMap`: an empty map writes nothing (the file is not even opened); otherwise the
      file holds the block count and then each block's position and colour. */
  function SaveMap(m: Manager, file: Option<seq<Value>>): (r: Option<seq<Value>>)
    ensures |m.blocks| == 0 ==> r == file
    ensures |m.blocks| > 0 ==>
      && r.Some? && |r.value| == 1 + 2 * |m.blocks|
      && r.value[0] == Count(|m.blocks|)
      && forall i :: 0 <= i < |m.blocks| ==>
           r.value[1 + 2 * i] == PosValue(m.blocks[i].pos)
           && r.value[2 + 2 * i] == ColorValue(m.blocks[i].color)
  {
    if |m.blocks| == 0 then file
    else
      EncodeRecordsFields(m.blocks);
      Some([Count(|m.blocks|)] + EncodeRecords(m.blocks))
  }

  /** The body of `loadMap`'s loop, `n` iterations to go over the values `vals` left. */
  function LoadRecords(m: Manager, vals: seq<Value>, n: int): (r: LoadOutcome)
    ensures r.state.color == m.color && r.state.selectColor == m.selectColor
    ensures r.state.selectedBlock == m.selectedBlock
    ensures |m.blocks| <= |r.state.blocks| && r.state.blocks[..|m.blocks|] == m.blocks
    ensures r.error.None? ==> |r.state.blocks| <= |m.blocks| + (if n < 0 then 0 else n)
    decreases |vals|
  {
    if n <= 0 then LoadOutcome(m, None)
    else if |vals| < 2 then LoadOutcome(m, Some(EndOfFile))
    else if vals[0].PosValue? && vals[1].ColorValue? then
      var m' := AddBlock(m, vals[0].p, Some(vals[1].c), vals[1].c);
      var r := LoadRecords(m', vals[2..], n - 1);
      assert r.state.blocks[..|m.blocks|] == r.state.blocks[..|m'.blocks|][..|m.blocks|];
      r
    else if vals[0].PosValue? && PositionTaken(m.blocks, vals[0].p) then
      // `addBlock` returns before it looks at the colour
      LoadRecords(m, vals[2..], n - 1)
    else
      LoadOutcome(m.(counter := m.counter + 1), Some(BadRecord))
  }

  /** `loadMap`: clears the map, then re-adds the stored pairs in order. */
  function LoadMap(m: Manager, file: Option<seq<Value>>): (r: LoadOutcome)
    ensures r.state.selectedBlock.None? && r.state.color == m.color
    ensures r.state.selectColor == m.selectColor
    ensures file.None? ==> |r.state.blocks| == 0 && r.error == Some(FileNotFound)
    ensures file.Some? && |file.value| == 0 ==> |r.state.blocks| == 0 && r.error == Some(EndOfFile)
    ensures file.Some? && 0 < |file.value| && !file.value[0].Count? ==>
      |r.state.blocks| == 0 && r.error == Some(BadCount)
    ensures r.error.None? ==>
      (file.Some? && 0 < |file.value| && file.value[0].Count?
       && |r.state.blocks| <= (if file.value[0].n < 0 then 0 else file.value[0].n))
  {
    var c := ClearAll(m);
    match file
    case None => LoadOutcome(c, Some(FileNotFound))
    case Some(vals) =>
      if |vals| == 0 then LoadOutcome(c, Some(EndOfFile))
      else match vals[0]
        case Count(n) => LoadRecords(c, vals[1..], n)
        case _ => LoadOutcome(c, Some(BadCount))
  }

  lemma {:induction false} LoadRecordsKeepsValid(m: Manager, vals: seq<Value>, n: int)
    requires Valid(m)
    ensures Valid(LoadRecords(m, vals, n).state)
    decreases |vals|
  {
    if n > 0 && |vals| >= 2 {
      if vals[0].PosValue? && vals[1].ColorValue? {
        var m' := AddBlock(m, vals[0].p, Some(vals[1].c), vals[1].c);
        AddBlockKeepsValid(m, vals[0].p, Some(vals[1].c), vals[1].c);
        LoadRecordsKeepsValid(m', vals[2..], n - 1);
      } else if vals[0].PosValue? && PositionTaken(m.blocks, vals[0].p) {
        LoadRecordsKeepsValid(m, vals[2..], n - 1);
      }
    }
  }

  /** Loading, whether it succeeds or raises, leaves a valid map. */
  lemma LoadMapKeepsValid(m: Manager, file: Option<seq<Value>>)
    ensures Valid(LoadMap(m, file).state)
  {
    if file.Some? && |file.value| > 0 && file.value[0].Count? {
      LoadRecordsKeepsValid(ClearAll(m), file.value[1..], file.value[0].n);
    }
  }

  /** The `addBlock` calls a run of saved records turns into. */
  function RecordReqs(blocks: seq<Block>): (reqs: seq<Req>)
    ensures |reqs| == |blocks|
  {
    seq(|blocks|, i requires 0 <= i < |blocks| =>
      Req(blocks[i].pos, Some(blocks[i].color), blocks[i].color))
  }

  lemma RecordReqsTail(blocks: seq<Block>)
    requires |blocks| > 0
    ensures RecordReqs(blocks)[1..] == RecordReqs(blocks[1..])
  {
  }

  /** Reading encoded records replays one explicit-colour `addBlock` per record. */
  lemma {:induction false} LoadEncoded(m: Manager, blocks: seq<Block>)
    ensures LoadRecords(m, EncodeRecords(blocks), |blocks|)
         == LoadOutcome(AddAll(m, RecordReqs(blocks)), None)
    decreases |blocks|
  {
    if |blocks| > 0 {
      var b := blocks[0];
      var vals := EncodeRecords(blocks);
      var m' := AddBlock(m, b.pos, Some(b.color), b.color);
      assert vals[2..] == EncodeRecords(blocks[1..]);
      RecordReqsTail(blocks);
      LoadEncoded(m', blocks[1..]);
      assert LoadRecords(m, vals, |blocks|) == LoadRecords(m', vals[2..], |blocks| - 1);
    }
  }

  /** Blocks at distinct positions turn into requests at distinct positions. */
  lemma RecordReqsDistinct(blocks: seq<Block>)
    requires PositionsDistinct(blocks)
    ensures ReqsDistinct(RecordReqs(blocks))
  {
  }

  /** Re-adding a map's own records reproduces its entries. */
  lemma PlacedRecordEntries(counter: nat, current: Option<Color>, blocks: seq<Block>)
    ensures Entries(PlacedSeq(counter, RecordReqs(blocks), current)) == Entries(blocks)
  {
  }

  /** Saving a non-empty map and loading the file back succeeds and reproduces the same
      sequence of (position, colour) pairs, whatever map `into` it is loaded into. */
  lemma SaveLoadRoundTrip(m: Manager, file: Option<seq<Value>>, into: Manager)
    requires Valid(m) && |m.blocks| > 0
    ensures LoadMap(into, SaveMap(m, file)).error.None?
    ensures Entries(LoadMap(into, SaveMap(m, file)).state.blocks) == Entries(m.blocks)
  {
    var saved := SaveMap(m, file).value;
    var c := ClearAll(into);
    assert saved[1..] == EncodeRecords(m.blocks);
    LoadEncoded(c, m.blocks);
    RecordReqsDistinct(m.blocks);
    AddAllFresh(c, RecordReqs(m.blocks));
    assert c.blocks + PlacedSeq(c.counter, RecordReqs(m.blocks), c.color)
        == PlacedSeq(c.counter, RecordReqs(m.blocks), c.color);
    PlacedRecordEntries(c.counter, c.color, m.blocks);
  }

  /** What `saveMap` writes depends on the entries alone. */
  lemma SaveDependsOnEntries(m: Manager, m': Manager, file: Option<seq<Value>>)
    requires Entries(m.blocks) == Entries(m'.blocks)
    ensures SaveMap(m, file) == SaveMap(m', file)
  {
    assert |m.blocks| == |m'.blocks|;
    if |m.blocks| > 0 {
      var a := SaveMap(m, file).value;
      var b := SaveMap(m', file).value;
      forall j | 0 <= j < |a| ensures a[j] == b[j] {
        if j > 0 {
          var i := (j - 1) / 2;
          assert Entries(m.blocks)[i] == Entries(m'.blocks)[i];
          assert j == 1 + 2 * i || j == 2 + 2 * i;
        }
      }
      assert a == b;
    }
  }

  /** Loading a saved non-empty map and saving it again writes the same file. */
  lemma LoadSaveRoundTrip(m: Manager, file: Option<seq<Value>>, into: Manager, file': Option<seq<Value>>)
    requires Valid(m) && |m.blocks| > 0
    ensures SaveMap(LoadMap(into, SaveMap(m, file)).state, file') == SaveMap(m, file)
  {
    SaveLoadRoundTrip(m, file, into);
    var loaded := LoadMap(into, SaveMap(m, file)).state;
    SaveDependsOnEntries(loaded, m, file');
  }
}

=== FILE: mapgen.dfy ===
/** Map generators: each clears the map and then adds blocks one `addBlock` call at a time. */
module MapGen {
  import opened Types
  import opened Blocks
  import opened MapManager

  /** One `addBlock(pos, color)` call; `random` is what `getRandomColor` would return there. */
  datatype Req = Req(pos: Pos, color: Option<Color>, random: Color)

  /** No two requests name the same position. */
  ghost predicate ReqsDistinct(reqs: seq<Req>)
  {
    forall i, j :: 0 <= i < j < |reqs| ==> reqs[i].pos != reqs[j].pos
  }

  /** The block `addBlock` appends for request `q` when the counter stands at `counter`. */
  function Placed(counter: nat, q: Req, current: Option<Color>): Block
  {
    NewBlock(counter, q.pos, ChooseColor(q.color, current, q.random))
  }

  /** The requests, issued in order. */
  function AddAll(m: Manager, reqs: seq<Req>): (r: Manager)
    ensures r.color == m.color && r.selectColor == m.selectColor && r.selectedBlock == m.selectedBlock
    ensures |m.blocks| <= |r.blocks| <= |m.blocks| + |reqs|
    ensures r.blocks[..|m.blocks|] == m.blocks
    decreases |reqs|
  {
    if |reqs| == 0 then m
    else
      var m' := AddBlock(m, reqs[0].pos, reqs[0].color, reqs[0].random);
      var r := AddAll(m', reqs[1..]);
      assert r.blocks[..|m.blocks|] == r.blocks[..|m'.blocks|][..|m.blocks|];
      r
  }

  lemma {:induction false} AddAllKeepsValid(m: Manager, reqs: seq<Req>)
    requires Valid(m)
    ensures Valid(AddAll(m, reqs))
    decreases |reqs|
  {
    if |reqs| > 0 {
      AddBlockKeepsValid(m, reqs[0].pos, reqs[0].color, reqs[0].random);
      AddAllKeepsValid(AddBlock(m, reqs[0].pos, reqs[0].color, reqs[0].random), reqs[1..]);
    }
  }

  /** `addBlock` at a free position appends the block the request describes. */
  lemma AddFreeAppends(m: Manager, q: Req)
    requires !Occupied(m.blocks, q.pos)
    ensures AddBlock(m, q.pos, q.color, q.random).blocks == m.blocks + [Placed(m.counter, q, m.color)]
    ensures AddBlock(m, q.pos, q.color, q.random).counter == m.counter + 1
    ensures AddBlock(m, q.pos, q.color, q.random).color == m.color
  {
  }

  /** Appending a block elsewhere leaves a free position free. */
  lemma StillFree(blocks: seq<Block>, b: Block, p: Pos)
    requires !Occupied(blocks, p) && b.pos != p
    ensures !Occupied(blocks + [b], p)
  {
  }

  /** The blocks a run of accepted requests appends, counter values rising from `counter`. */
  function PlacedSeq(counter: nat, reqs: seq<Req>, current: Option<Color>): (r: seq<Block>)
    ensures |r| == |reqs|
  {
    seq(|reqs|, k requires 0 <= k < |reqs| => Placed(counter + k, reqs[k], current))
  }

  lemma PlacedSeqCons(counter: nat, reqs: seq<Req>, current: Option<Color>)
    requires 0 < |reqs|
    ensures PlacedSeq(counter, reqs, current)
         == [Placed(counter, reqs[0], current)] + PlacedSeq(counter + 1, reqs[1..], current)
  {
    var lhs := PlacedSeq(counter, reqs, current);
    var rhs := [Placed(counter, reqs[0], current)] + PlacedSeq(counter + 1, reqs[1..], current);
    forall k | 0 <= k < |reqs| ensures lhs[k] == rhs[k] {
      if k > 0 {
        assert reqs[1..][k - 1] == reqs[k];
      }
    }
  }

  /** None of the requested positions is taken yet. */
  ghost predicate AllFree(blocks: seq<Block>, reqs: seq<Req>)
  {
    forall k :: 0 <= k < |reqs| ==> !Occupied(blocks, reqs[k].pos)
  }

  /** After the first of distinct, free requests is accepted, the rest are still distinct and free. */
  lemma AddFirstFresh(m: Manager, reqs: seq<Req>)
    requires 0 < |reqs| && ReqsDistinct(reqs) && AllFree(m.blocks, reqs)
    ensures ReqsDistinct(reqs[1..])
    ensures AllFree(AddBlock(m, reqs[0].pos, reqs[0].color, reqs[0].random).blocks, reqs[1..])
  {
    var q := reqs[0];
    var tail := reqs[1..];
    AddFreeAppends(m, q);
    forall k | 0 <= k < |tail|
      ensures !Occupied(AddBlock(m, q.pos, q.color, q.random).blocks, tail[k].pos)
    {
      assert tail[k] == reqs[k + 1];
      StillFree(m.blocks, Placed(m.counter, q, m.color), tail[k].pos);
    }
    forall i, j | 0 <= i < j < |tail| ensures tail[i].pos != tail[j].pos {
      assert tail[i] == reqs[i + 1] && tail[j] == reqs[j + 1];
    }
  }

  /** Requests at distinct, free positions are all accepted: one new block each, in order. */
  lemma {:induction false} AddAllFresh(m: Manager, reqs: seq<Req>)
    requires ReqsDistinct(reqs) && AllFree(m.blocks, reqs)
    ensures AddAll(m, reqs).blocks == m.blocks + PlacedSeq(m.counter, reqs, m.color)
    ensures AddAll(m, reqs).counter == m.counter + |reqs|
    decreases |reqs|
  {
    if |reqs| == 0 {
      assert m.blocks + PlacedSeq(m.counter, reqs, m.color) == m.blocks;
    } else {
      var m' := AddBlock(m, reqs[0].pos, reqs[0].color, reqs[0].random);
      AddFreeAppends(m, reqs[0]);
      AddFirstFresh(m, reqs);
      AddAllFresh(m', reqs[1..]);
      PlacedSeqCons(m.counter, reqs, m.color);
      assert AddAll(m, reqs) == AddAll(m', reqs[1..]);
    }
  }

  // ----- basicMap -----

  /** The 15 x 15 white floor at height -2, in the order of the nested loops over i, then j.
      Every request names its colour, so `unused`, the stand-in for a random colour, is
      never consulted. */
  function BasicRequests(unused: Color): seq<Req>
  {
    seq(225, k requires 0 <= k < 225 => Req(Pos(k / 15 - 7, k % 15 - 7, -2), Some(White), unused))
  }

  /** The loops over i and j issue one white request per cell (i, j, -2), -7 <= i, j <= 7,
      row by row, and nothing outside that square. */
  lemma BasicRequestsCover(unused: Color)
    ensures |BasicRequests(unused)| == 225
    ensures forall i, j :: -7 <= i <= 7 && -7 <= j <= 7 ==>
      BasicRequests(unused)[(i + 7) * 15 + (j + 7)] == Req(Pos(i, j, -2), Some(White), unused)
    ensures forall k :: 0 <= k < |BasicRequests(unused)| ==>
      var q := BasicRequests(unused)[k];
      -7 <= q.pos.x <= 7 && -7 <= q.pos.y <= 7 && q.pos.z == -2 && q.color == Some(White)
  {
    var r := BasicRequests(unused);
    forall i, j | -7 <= i <= 7 && -7 <= j <= 7
      ensures r[(i + 7) * 15 + (j + 7)] == Req(Pos(i, j, -2), Some(White), unused)
    {
      FloorIndex(i + 7, j + 7);
    }
  }

  /** `basicMap`. */
  function BasicMap(m: Manager): (r: Manager)
    ensures Valid(r)
    ensures r.selectedBlock.None? && r.color == m.color && r.selectColor == m.selectColor
  {
    var c := ClearAll(m);
    AddAllKeepsValid(c, BasicRequests(White));
    AddAll(c, BasicRequests(White))
  }

  lemma BasicRequestsDistinct(unused: Color)
    ensures ReqsDistinct(BasicRequests(unused))
  {
    var reqs := BasicRequests(unused);
    forall i, j | 0 <= i < j < 225 ensures reqs[i].pos != reqs[j].pos {
    }
  }

  /** Every basic-map request is accepted. */
  lemma BasicMapPlaced(m: Manager)
    ensures |BasicMap(m).blocks| == 225
    ensures BasicMap(m).blocks == PlacedSeq(m.counter, BasicRequests(White), m.color)
    ensures BasicMap(m).counter == m.counter + 225
  {
    var c := ClearAll(m);
    BasicRequestsDistinct(White);
    AddAllFresh(c, BasicRequests(White));
    assert c.blocks + PlacedSeq(c.counter, BasicRequests(White), c.color)
        == PlacedSeq(m.counter, BasicRequests(White), m.color);
  }

  /** Block k of the basic map is the k-th floor cell, white and unselected. */
  lemma BasicMapBlocks(m: Manager)
    ensures |BasicMap(m).blocks| == 225
    ensures forall k :: 0 <= k < 225 ==>
      && BasicMap(m).blocks[k].pos == Pos(k / 15 - 7, k % 15 - 7, -2)
      && BasicMap(m).blocks[k].color == White
      && BasicMap(m).blocks[k].shown == White
      && !BasicMap(m).blocks[k].selected
  {
    BasicMapPlaced(m);
    var reqs := BasicRequests(White);
    var r := BasicMap(m);
    assert |r.blocks| == 225;
    forall k | 0 <= k < 225
      ensures && BasicMap(m).blocks[k].pos == Pos(k / 15 - 7, k % 15 - 7, -2)
              && BasicMap(m).blocks[k].color == White
              && BasicMap(m).blocks[k].shown == White
              && !BasicMap(m).blocks[k].selected
    {
      var placed := PlacedSeq(m.counter, reqs, m.color);
      assert r.blocks[k] == placed[k];
      assert placed[k].pos == Pos(k / 15 - 7, k % 15 - 7, -2) && placed[k].color == White;
    }
  }

  /** Row-major indices of the 15-wide floor decode back to row and column. */
  lemma FloorIndex(row: nat, col: nat)
    requires col < 15
    ensures (row * 15 + col) / 15 == row && (row * 15 + col) % 15 == col
  {
  }

  /** The basic map is exactly the 225 white blocks (i, j, -2), -7 <= i, j <= 7, row by row. */
  lemma BasicMapShape(m: Manager)
    ensures |BasicMap(m).blocks| == 225
    ensures forall i, j :: -7 <= i <= 7 && -7 <= j <= 7 ==>
      BasicMap(m).blocks[(i + 7) * 15 + (j + 7)].pos == Pos(i, j, -2)
    ensures forall k :: 0 <= k < 225 ==>
      -7 <= BasicMap(m).blocks[k].pos.x <= 7 && -7 <= BasicMap(m).blocks[k].pos.y <= 7
      && BasicMap(m).blocks[k].pos.z == -2
  {
    BasicMapBlocks(m);
    forall i, j | -7 <= i <= 7 && -7 <= j <= 7
      ensures BasicMap(m).blocks[(i + 7) * 15 + (j + 7)].pos == Pos(i, j, -2)
    {
      FloorIndex(i + 7, j + 7);
    }
  }

  // ----- generateRandomMap -----

  /** The random values one grid cell consumes: a `randint` height and a random colour. */
  datatype Draw = Draw(height: int, color: Color)

  const GridCells: nat := 289

  /** Cell k of the 17 x 17 grid, -8 <= i, j <= 8, in loop order. */
  function CellI(k: nat): int { k / 17 - 8 }
  function CellJ(k: nat): int { k % 17 - 8 }

  /** The cells the second loop skips with `continue`. */
  predicate Inner(k: nat)
  {
    -5 < CellI(k) < 5 && -5 < CellJ(k) < 5
  }

  function CellReq(k: nat, d: Draw): Req
  {
    Req(Pos(CellI(k), CellJ(k), d.height), None, d.color)
  }

  /** The first loop: one block per cell at a height drawn from [-4, -2]. */
  function FloorRequests(low: seq<Draw>): seq<Req>
    requires |low| == GridCells
  {
    seq(GridCells, k requires 0 <= k < GridCells => CellReq(k, low[k]))
  }

  /** The grid cell a position stands over, inverse of `CellI`/`CellJ`. */
  function CellIndex(p: Pos): int
  {
    (p.x + 8) * 17 + (p.y + 8)
  }

  lemma CellIndexOfCell(k: nat, d: Draw)
    ensures CellIndex(CellReq(k, d).pos) == k
  {
  }

  /** The first loop issues, for each grid cell in order, one request standing over that
      cell at the drawn height, with no explicit colour. */
  lemma FloorRequestsCells(low: seq<Draw>)
    requires |low| == GridCells
    ensures |FloorRequests(low)| == GridCells
    ensures forall k :: 0 <= k < GridCells ==>
      var q := FloorRequests(low)[k];
      && CellIndex(q.pos) == k
      && -8 <= q.pos.x <= 8 && -8 <= q.pos.y <= 8
      && q.pos.z == low[k].height && q.color.None? && q.random == low[k].color
  {
    forall k | 0 <= k < GridCells
      ensures CellIndex(FloorRequests(low)[k].pos) == k
    {
      CellIndexOfCell(k, low[k]);
    }
  }

  /** `q` is the request the second loop issues for an edge cell numbered below `n`. */
  ghost predicate EdgeReqBelow(q: Req, high: seq<Draw>, n: nat)
    requires |high| == GridCells
  {
    var c := CellIndex(q.pos);
    0 <= c < n && c < GridCells && !Inner(c) && q == CellReq(c, high[c])
  }

  /** The second loop's requests for the first `n` cells: one block per edge cell, at a
      height drawn from [-1, 6]. `high` holds a draw for every cell; those of inner cells
      are never consumed. */
  function EdgePrefix(high: seq<Draw>, n: nat): (r: seq<Req>)
    requires |high| == GridCells && n <= GridCells
    ensures forall a :: 0 <= a < |r| ==> EdgeReqBelow(r[a], high, n)
    ensures forall c :: 0 <= c < n && !Inner(c) ==> CellReq(c, high[c]) in r
    ensures forall a, b :: 0 <= a < b < |r| ==> CellIndex(r[a].pos) < CellIndex(r[b].pos)
  {
    if n == 0 then []
    else
      var init := EdgePrefix(high, n - 1);
      if Inner(n - 1) then init
      else
        CellIndexOfCell(n - 1, high[n - 1]);
        init + [CellReq(n - 1, high[n - 1])]
  }

  /** All requests of the second loop. */
  function EdgeRequests(high: seq<Draw>): seq<Req>
    requires |high| == GridCells
  {
    EdgePrefix(high, |high|)
  }

  /** `generateRandomMap`, with the random draws passed in. */
  function GenerateRandomMap(m: Manager, low: seq<Draw>, high: seq<Draw>): (r: Manager)
    requires |low| == GridCells && |high| == GridCells
    ensures Valid(r)
    ensures r.selectedBlock.None? && r.color == m.color && r.selectColor == m.selectColor
  {
    var c := ClearAll(m);
    var reqs := FloorRequests(low) + EdgeRequests(high);
    AddAllKeepsValid(c, reqs);
    AddAll(c, reqs)
  }

  /** Two request runs that are each distinct and share no position form a distinct run. */
  lemma ReqsDistinctConcat(a: seq<Req>, b: seq<Req>)
    requires ReqsDistinct(a) && ReqsDistinct(b)
    requires forall i, j :: 0 <= i < |a| && 0 <= j < |b| ==> a[i].pos != b[j].pos
    ensures ReqsDistinct(a + b)
  {
    var ab := a + b;
    forall i, j | 0 <= i < j < |ab| ensures ab[i].pos != ab[j].pos {
      if j < |a| {
        assert ab[i] == a[i] && ab[j] == a[j];
      } else if i < |a| {
        assert ab[i] == a[i] && ab[j] == b[j - |a|];
      } else {
        assert ab[i] == b[i - |a|] && ab[j] == b[j - |a|];
      }
    }
  }

  /** The heights `randint(-4, -2)` and `randint(-1, 6)` can return. */
  ghost predicate DrawsInRange(low: seq<Draw>, high: seq<Draw>)
  {
    && (forall k :: 0 <= k < |low| ==> -4 <= low[k].height <= -2)
    && (forall k :: 0 <= k < |high| ==> -1 <= high[k].height <= 6)
  }

  lemma RandomRequestsDistinct(low: seq<Draw>, high: seq<Draw>)
    requires |low| == GridCells && |high| == GridCells
    requires DrawsInRange(low, high)
    ensures ReqsDistinct(FloorRequests(low) + EdgeRequests(high))
  {
    var floor := FloorRequests(low);
    var edge := EdgeRequests(high);
    forall i, j | 0 <= i < j < |floor| ensures floor[i].pos != floor[j].pos {
      CellIndexOfCell(i, low[i]);
      CellIndexOfCell(j, low[j]);
    }
    forall i, j | 0 <= i < |floor| && 0 <= j < |edge| ensures floor[i].pos != edge[j].pos {
      assert EdgeReqBelow(edge[j], high, |high|);
    }
    ReqsDistinctConcat(floor, edge);
  }

  /** With heights in range, no draw of `generateRandomMap` is rejected: the map is the
      floor layer in cell order followed by one block per edge cell. */
  lemma GenerateRandomMapPlaced(m: Manager, low: seq<Draw>, high: seq<Draw>)
    requires |low| == GridCells && |high| == GridCells
    requires DrawsInRange(low, high)
    ensures GenerateRandomMap(m, low, high).blocks
         == PlacedSeq(m.counter, FloorRequests(low) + EdgeRequests(high), m.color)
    ensures GenerateRandomMap(m, low, high).counter
         == m.counter + |FloorRequests(low) + EdgeRequests(high)|
  {
    var c := ClearAll(m);
    var reqs := FloorRequests(low) + EdgeRequests(high);
    RandomRequestsDistinct(low, high);
    AddAllFresh(c, reqs);
    assert c.blocks + PlacedSeq(c.counter, reqs, c.color) == PlacedSeq(m.counter, reqs, m.color);
  }

  /** The first 289 accepted random-map requests are the floor, in cell order. */
  lemma RandomPlacedFloor(counter: nat, current: Option<Color>, low: seq<Draw>, high: seq<Draw>,
                          placed: seq<Block>)
    requires |low| == GridCells && |high| == GridCells
    requires placed == PlacedSeq(counter, FloorRequests(low) + EdgeRequests(high), current)
    ensures |placed| == GridCells + |EdgeRequests(high)|
    ensures forall k :: 0 <= k < GridCells ==>
      placed[k].pos == Pos(CellI(k), CellJ(k), low[k].height)
      && placed[k].color == ChooseColor(None, current, low[k].color)
  {
    var floor := FloorRequests(low);
    var reqs := floor + EdgeRequests(high);
    forall k | 0 <= k < GridCells
      ensures placed[k].pos == Pos(CellI(k), CellJ(k), low[k].height)
      ensures placed[k].color == ChooseColor(None, current, low[k].color)
    {
      assert reqs[k] == floor[k];
    }
  }

  /** Every edge cell gets its block among the accepted random-map requests. */
  lemma RandomPlacedEdgeCells(counter: nat, current: Option<Color>, low: seq<Draw>, high: seq<Draw>,
                              placed: seq<Block>)
    requires |low| == GridCells && |high| == GridCells
    requires placed == PlacedSeq(counter, FloorRequests(low) + EdgeRequests(high), current)
    ensures forall c :: 0 <= c < GridCells && !Inner(c) ==>
      Occupied(placed, Pos(CellI(c), CellJ(c), high[c].height))
  {
    var floor := FloorRequests(low);
    var edge := EdgeRequests(high);
    var reqs := floor + edge;
    assert |floor| == GridCells;
    forall c | 0 <= c < GridCells && !Inner(c)
      ensures Occupied(placed, Pos(CellI(c), CellJ(c), high[c].height))
    {
      var q := CellReq(c, high[c]);
      assert q in edge;
      var a :| 0 <= a < |edge| && edge[a] == q;
      assert reqs[GridCells + a] == q;
      assert placed[GridCells + a].pos == q.pos;
    }
  }

  /** Blocks after the floor stand on edge cells at heights in [-1, 6]. */
  lemma RandomPlacedEdgeBounds(counter: nat, current: Option<Color>, low: seq<Draw>, high: seq<Draw>,
                               placed: seq<Block>)
    requires |low| == GridCells && |high| == GridCells
    requires DrawsInRange(low, high)
    requires placed == PlacedSeq(counter, FloorRequests(low) + EdgeRequests(high), current)
    ensures forall i :: GridCells <= i < |placed| ==>
      -1 <= placed[i].pos.z <= 6 && !(-5 < placed[i].pos.x < 5 && -5 < placed[i].pos.y < 5)
  {
    var floor := FloorRequests(low);
    var edge := EdgeRequests(high);
    var reqs := floor + edge;
    assert |floor| == GridCells;
    forall i | GridCells <= i < |placed|
      ensures -1 <= placed[i].pos.z <= 6
      ensures !(-5 < placed[i].pos.x < 5 && -5 < placed[i].pos.y < 5)
    {
      var q := edge[i - GridCells];
      assert reqs[i] == q;
      assert placed[i].pos == q.pos;
      assert EdgeReqBelow(q, high, |high|);
      var c := CellIndex(q.pos);
      assert q.pos.z == high[c].height;
    }
  }

  /** The random map: 289 floor blocks at their drawn heights, then every edge cell's block
      at its drawn height; none of them takes an explicit colour. */
  lemma GenerateRandomMapShape(m: Manager, low: seq<Draw>, high: seq<Draw>)
    requires |low| == GridCells && |high| == GridCells
    requires DrawsInRange(low, high)
    ensures |GenerateRandomMap(m, low, high).blocks| == GridCells + |EdgeRequests(high)|
    ensures forall k :: 0 <= k < GridCells ==>
      && GenerateRandomMap(m, low, high).blocks[k].pos == Pos(CellI(k), CellJ(k), low[k].height)
      && GenerateRandomMap(m, low, high).blocks[k].color == ChooseColor(None, m.color, low[k].color)
    ensures forall c :: 0 <= c < GridCells && !Inner(c) ==>
      Occupied(GenerateRandomMap(m, low, high).blocks, Pos(CellI(c), CellJ(c), high[c].height))
    ensures forall i :: GridCells <= i < |GenerateRandomMap(m, low, high).blocks| ==>
      var p := GenerateRandomMap(m, low, high).blocks[i].pos;
      -1 <= p.z <= 6 && !(-5 < p.x < 5 && -5 < p.y < 5)
  {
    GenerateRandomMapPlaced(m, low, high);
    var placed := GenerateRandomMap(m, low, high).blocks;
    RandomPlacedFloor(m.counter, m.color, low, high, placed);
    RandomPlacedEdgeCells(m.counter, m.color, low, high, placed);
    RandomPlacedEdgeBounds(m.counter, m.color, low, high, placed);
  }

  // ----- createMap -----

  /** `key in colors and colors[key]`: the symbol names a colour that is not None. */
  predicate Truthy(colors: map<string, Option<Color>>, sym: string)
  {
    sym in colors && colors[sym].Some?
  }

  /** Where cell (z, y, x) goes: shifted, with the Y axis inverted. */
  function CellPos(shift: Pos, z: int, y: int, x: int): Pos
  {
    Pos(x + shift.x, -y - shift.y, z + shift.z)
  }

  /** The `addBlock` call for a cell whose symbol names a colour. */
  function SymbolReq(colors: map<string, Option<Color>>, shift: Pos, z: int, y: int, x: int, sym: string): Req
    requires Truthy(colors, sym)
  {
    Req(CellPos(shift, z, y, x), colors[sym], colors[sym].value)
  }

  /** The cell a position comes from, if it lies inside the matrix. */
  predicate InMatrix(matrix: seq<seq<seq<string>>>, shift: Pos, p: Pos)
  {
    var z, y, x := p.z - shift.z, -p.y - shift.y, p.x - shift.x;
    0 <= z < |matrix| && 0 <= y < |matrix[z]| && 0 <= x < |matrix[z][y]|
  }

  function SymbolAt(matrix: seq<seq<seq<string>>>, shift: Pos, p: Pos): string
    requires InMatrix(matrix, shift, p)
  {
    matrix[p.z - shift.z][-p.y - shift.y][p.x - shift.x]
  }

  /** `q` is the request `createMap` issues for the cell its position comes from. */
  ghost predicate FromCell(colors: map<string, Option<Color>>, matrix: seq<seq<seq<string>>>, shift: Pos, q: Req)
  {
    && InMatrix(matrix, shift, q.pos)
    && Truthy(colors, SymbolAt(matrix, shift, q.pos))
    && q.color == colors[SymbolAt(matrix, shift, q.pos)]
  }

  /** Loop order: by layer z, then row y (position y falls), then column x. */
  predicate Before(p: Pos, q: Pos)
  {
    p.z < q.z || (p.z == q.z && (p.y > q.y || (p.y == q.y && p.x < q.x)))
  }

  ghost predicate Sorted(reqs: seq<Req>)
  {
    forall a, b :: 0 <= a < b < |reqs| ==> Before(reqs[a].pos, reqs[b].pos)
  }

  lemma SortedConcat(u: seq<Req>, v: seq<Req>)
    requires Sorted(u) && Sorted(v)
    requires forall a, b :: 0 <= a < |u| && 0 <= b < |v| ==> Before(u[a].pos, v[b].pos)
    ensures Sorted(u + v)
  {
    var w := u + v;
    forall a, b | 0 <= a < b < |w| ensures Before(w[a].pos, w[b].pos) {
      if b < |u| {
        assert w[a] == u[a] && w[b] == u[b];
      } else if a < |u| {
        assert w[a] == u[a] && w[b] == v[b - |u|];
      } else {
        assert w[a] == v[a - |u|] && w[b] == v[b - |u|];
      }
    }
  }

  lemma SortedDistinct(reqs: seq<Req>)
    requires Sorted(reqs)
    ensures ReqsDistinct(reqs)
  {
    forall i, j | 0 <= i < j < |reqs| ensures reqs[i].pos != reqs[j].pos {
      assert Before(reqs[i].pos, reqs[j].pos);
    }
  }

  /** The innermost loop over the first `n` cells of row y of layer z. */
  function RowPrefix(colors: map<string, Option<Color>>, matrix: seq<seq<seq<string>>>, shift: Pos,
                     z: nat, y: nat, n: nat): (r: seq<Req>)
    requires z < |matrix| && y < |matrix[z]| && n <= |matrix[z][y]|
    ensures forall a :: 0 <= a < |r| ==> FromCell(colors, matrix, shift, r[a])
    ensures forall a :: 0 <= a < |r| ==>
      r[a].pos.z == z + shift.z && r[a].pos.y == -(y as int) - shift.y && r[a].pos.x < n + shift.x
    ensures forall x :: 0 <= x < n && Truthy(colors, matrix[z][y][x]) ==>
      SymbolReq(colors, shift, z, y, x, matrix[z][y][x]) in r
    ensures Sorted(r)
  {
    if n == 0 then []
    else
      var init := RowPrefix(colors, matrix, shift, z, y, n - 1);
      var sym := matrix[z][y][n - 1];
      if Truthy(colors, sym) then
        var q := SymbolReq(colors, shift, z, y, n - 1, sym);
        assert FromCell(colors, matrix, shift, q) by {
          assert SymbolAt(matrix, shift, q.pos) == sym;
        }
        SortedConcat(init, [q]);
        init + [q]
      else
        init
  }

  /** The two inner loops over the first `n` rows of layer z. */
  function LayerPrefix(colors: map<string, Option<Color>>, matrix: seq<seq<seq<string>>>, shift: Pos,
                       z: nat, n: nat): (r: seq<Req>)
    requires z < |matrix| && n <= |matrix[z]|
    ensures forall a :: 0 <= a < |r| ==> FromCell(colors, matrix, shift, r[a])
    ensures forall a :: 0 <= a < |r| ==> r[a].pos.z == z + shift.z && r[a].pos.y > -(n as int) - shift.y
    ensures forall y, x :: 0 <= y < n && 0 <= x < |matrix[z][y]| && Truthy(colors, matrix[z][y][x]) ==>
      SymbolReq(colors, shift, z, y, x, matrix[z][y][x]) in r
    ensures Sorted(r)
  {
    if n == 0 then []
    else
      var init := LayerPrefix(colors, matrix, shift, z, n - 1);
      var row := RowPrefix(colors, matrix, shift, z, n - 1, |matrix[z][n - 1]|);
      SortedConcat(init, row);
      init + row
  }

  /** All three loops over the first `n` layers. */
  function MatrixPrefix(colors: map<string, Option<Color>>, matrix: seq<seq<seq<string>>>, shift: Pos,
                        n: nat): (r: seq<Req>)
    requires n <= |matrix|
    ensures forall a :: 0 <= a < |r| ==> FromCell(colors, matrix, shift, r[a])
    ensures forall a :: 0 <= a < |r| ==> r[a].pos.z < n + shift.z
    ensures forall z, y, x ::
      (0 <= z < n && 0 <= y < |matrix[z]| && 0 <= x < |matrix[z][y]| && Truthy(colors, matrix[z][y][x]))
      ==> SymbolReq(colors, shift, z, y, x, matrix[z][y][x]) in r
    ensures Sorted(r)
  {
    if n == 0 then []
    else
      var init := MatrixPrefix(colors, matrix, shift, n - 1);
      var layer := LayerPrefix(colors, matrix, shift, n - 1, |matrix[n - 1]|);
      SortedConcat(init, layer);
      init + layer
  }

  /** `createMap(colors, matrix, shift)`. */
  function CreateMap(m: Manager, colors: map<string, Option<Color>>, matrix: seq<seq<seq<string>>>,
                     shift: Pos): (r: Manager)
    ensures Valid(r)
    ensures r.selectedBlock.None? && r.color == m.color && r.selectColor == m.selectColor
  {
    var c := ClearAll(m);
    var reqs := MatrixPrefix(colors, matrix, shift, |matrix|);
    AddAllKeepsValid(c, reqs);
    AddAll(c, reqs)
  }

  /** Every request of `createMap` is accepted. */
  lemma CreateMapPlaced(m: Manager, colors: map<string, Option<Color>>, matrix: seq<seq<seq<string>>>,
                        shift: Pos)
    ensures CreateMap(m, colors, matrix, shift).blocks
         == PlacedSeq(m.counter, MatrixPrefix(colors, matrix, shift, |matrix|), m.color)
    ensures CreateMap(m, colors, matrix, shift).counter
         == m.counter + |MatrixPrefix(colors, matrix, shift, |matrix|)|
  {
    var c := ClearAll(m);
    var reqs := MatrixPrefix(colors, matrix, shift, |matrix|);
    SortedDistinct(reqs);
    AddAllFresh(c, reqs);
    assert c.blocks + PlacedSeq(c.counter, reqs, c.color) == PlacedSeq(m.counter, reqs, m.color);
  }

  /** Every block of the created map comes from a cell whose symbol names its colour. */
  lemma CreateMapBlocksFromCells(m: Manager, colors: map<string, Option<Color>>,
                                 matrix: seq<seq<seq<string>>>, shift: Pos)
    ensures forall i :: 0 <= i < |CreateMap(m, colors, matrix, shift).blocks| ==>
      var b := CreateMap(m, colors, matrix, shift).blocks[i];
      && InMatrix(matrix, shift, b.pos)
      && Truthy(colors, SymbolAt(matrix, shift, b.pos))
      && b.color == colors[SymbolAt(matrix, shift, b.pos)].value
      && !b.selected
  {
    var reqs := MatrixPrefix(colors, matrix, shift, |matrix|);
    CreateMapPlaced(m, colors, matrix, shift);
    PlacedFromCells(m.counter, m.color, colors, matrix, shift, reqs,
                    CreateMap(m, colors, matrix, shift).blocks);
  }

  lemma PlacedFromCells(counter: nat, current: Option<Color>, colors: map<string, Option<Color>>,
                        matrix: seq<seq<seq<string>>>, shift: Pos, reqs: seq<Req>, placed: seq<Block>)
    requires forall a :: 0 <= a < |reqs| ==> FromCell(colors, matrix, shift, reqs[a])
    requires placed == PlacedSeq(counter, reqs, current)
    ensures forall i :: 0 <= i < |placed| ==>
      && InMatrix(matrix, shift, placed[i].pos)
      && Truthy(colors, SymbolAt(matrix, shift, placed[i].pos))
      && placed[i].color == colors[SymbolAt(matrix, shift, placed[i].pos)].value
      && !placed[i].selected
  {
    forall i | 0 <= i < |placed|
      ensures InMatrix(matrix, shift, placed[i].pos)
      ensures Truthy(colors, SymbolAt(matrix, shift, placed[i].pos))
      ensures placed[i].color == colors[SymbolAt(matrix, shift, placed[i].pos)].value
    {
      assert FromCell(colors, matrix, shift, reqs[i]);
      assert placed[i].pos == reqs[i].pos;
    }
  }

  /** Over the placed blocks: a truthy cell's position is taken. */
  lemma PlacedCovers(counter: nat, current: Option<Color>, reqs: seq<Req>, placed: seq<Block>, q: Req)
    requires placed == PlacedSeq(counter, reqs, current)
    requires q in reqs
    ensures Occupied(placed, q.pos)
  {
    var a :| 0 <= a < |reqs| && reqs[a] == q;
    assert placed[a].pos == q.pos;
  }

  /** A position inside the matrix names exactly one cell. */
  lemma SymbolAtCell(matrix: seq<seq<seq<string>>>, shift: Pos, z: nat, y: nat, x: nat)
    requires z < |matrix| && y < |matrix[z]| && x < |matrix[z][y]|
    ensures InMatrix(matrix, shift, CellPos(shift, z, y, x))
    ensures SymbolAt(matrix, shift, CellPos(shift, z, y, x)) == matrix[z][y][x]
  {
  }

  /** A block stands at a cell's position exactly when the cell's symbol names a colour:
      cells whose symbol is missing from `colors` or maps to None stay empty. */
  lemma CreateMapOccupiedIffTruthy(m: Manager, colors: map<string, Option<Color>>,
                                   matrix: seq<seq<seq<string>>>, shift: Pos)
    ensures forall z, y, x :: 0 <= z < |matrix| && 0 <= y < |matrix[z]| && 0 <= x < |matrix[z][y]| ==>
      (Occupied(CreateMap(m, colors, matrix, shift).blocks, CellPos(shift, z, y, x))
       <==> Truthy(colors, matrix[z][y][x]))
  {
    var blocks := CreateMap(m, colors, matrix, shift).blocks;
    CreateMapPlaced(m, colors, matrix, shift);
    CreateMapBlocksFromCells(m, colors, matrix, shift);
    forall z, y, x | 0 <= z < |matrix| && 0 <= y < |matrix[z]| && 0 <= x < |matrix[z][y]|
      ensures Occupied(blocks, CellPos(shift, z, y, x)) <==> Truthy(colors, matrix[z][y][x])
    {
      var p := CellPos(shift, z, y, x);
      SymbolAtCell(matrix, shift, z, y, x);
      if Truthy(colors, matrix[z][y][x]) {
        var reqs := MatrixPrefix(colors, matrix, shift, |matrix|);
        PlacedCovers(m.counter, m.color, reqs, blocks, SymbolReq(colors, shift, z, y, x, matrix[z][y][x]));
      }
      if Occupied(blocks, p) {
        var i :| 0 <= i < |blocks| && blocks[i].pos == p;
        assert Truthy(colors, SymbolAt(matrix, shift, blocks[i].pos));
      }
    }
  }
}

=== FILE: mapmanager.dfy ===
/** The map manager's state and the operations that add, select, recolour and remove blocks. */
module MapManager {
  import opened Types
  import opened Blocks
  import Keys

  /** The manager's fields plus the class-wide block counter. `selectedBlock` holds the
      id of the block `selected_block` refers to. */
  datatype Manager = Manager(
    blocks: seq<Block>,
    selectedBlock: Option<nat>,
    color: Option<Color>,
    selectColor: Color,
    counter: nat)

  /** A colour whose channels all lie in [0, 1]. */
  predicate InUnit(k: Color) {
    0.0 <= k.r <= 1.0 && 0.0 <= k.g <= 1.0 && 0.0 <= k.b <= 1.0 && 0.0 <= k.a <= 1.0
  }

  /** `getSelectColor`: a darkened, slightly transparent copy of the current colour. */
  function SelectColorFor(c: Option<Color>): (s: Color)
    ensures s.a == 0.9
    ensures c.None? ==> s.r == s.g == s.b == 0.15
    ensures c.Some? ==> s.r == c.value.r * 0.4 && s.g == c.value.g * 0.4 && s.b == c.value.b * 0.4
    ensures c.Some? && InUnit(c.value) ==>
      InUnit(s) && s.r <= 0.4 && s.g <= 0.4 && s.b <= 0.4
  {
    match c
    case None => Rgba(0.15, 0.15, 0.15, 0.9)
    case Some(k) => Rgba(k.r * 0.4, k.g * 0.4, k.b * 0.4, 0.9)
  }

  /** Some block stands at `pos`. */
  ghost predicate Occupied(blocks: seq<Block>, pos: Pos)
  {
    exists i :: 0 <= i < |blocks| && blocks[i].pos == pos
  }

  /** No two blocks share a position. */
  ghost predicate PositionsDistinct(blocks: seq<Block>)
  {
    forall i, j :: 0 <= i < j < |blocks| ==> blocks[i].pos != blocks[j].pos
  }

  /** No two blocks share an id, hence (by `KeysDistinct`) a key. */
  ghost predicate IdsDistinct(blocks: seq<Block>)
  {
    forall i, j :: 0 <= i < j < |blocks| ==> blocks[i].id != blocks[j].id
  }

  /** At most one block carries the selected flag. */
  ghost predicate AtMostOneSelected(blocks: seq<Block>)
  {
    forall i, j :: 0 <= i < j < |blocks| ==> !(blocks[i].selected && blocks[j].selected)
  }

  /** The invariant every manager operation keeps. */
  ghost predicate Valid(m: Manager)
  {
    && (forall i :: 0 <= i < |m.blocks| ==> m.blocks[i].id < m.counter)
    && IdsDistinct(m.blocks)
    && PositionsDistinct(m.blocks)
    && (forall i :: 0 <= i < |m.blocks| && m.blocks[i].selected ==>
          m.selectedBlock == Some(m.blocks[i].id))
    && (m.selectedBlock.Some? ==>
          exists i :: 0 <= i < |m.blocks| && m.blocks[i].id == m.selectedBlock.value)
  }

  /** With distinct ids, the selected flag marks at most one block. */
  lemma ValidAtMostOneSelected(m: Manager)
    requires Valid(m)
    ensures AtMostOneSelected(m.blocks)
  {
    forall i, j | 0 <= i < j < |m.blocks| && m.blocks[i].selected
      ensures !m.blocks[j].selected
    {
      assert m.selectedBlock == Some(m.blocks[i].id);
    }
  }

  /** A freshly constructed manager, with the class counter at `counter`. */
  function Init(counter: nat): (m: Manager)
    ensures Valid(m)
    ensures |m.blocks| == 0 && m.selectedBlock.None? && m.color.None?
    ensures m.selectColor == Rgba(0.15, 0.15, 0.15, 0.9) && m.counter == counter
  {
    Manager([], None, None, SelectColorFor(None), counter)
  }

  /** The scan at the head of `addBlock`: true iff some block stands at `pos`. */
  function PositionTaken(blocks: seq<Block>, pos: Pos): (r: bool)
    ensures r <==> Occupied(blocks, pos)
  {
    if |blocks| == 0 then false
    else if blocks[0].pos == pos then true
    else
      var rest := PositionTaken(blocks[1..], pos);
      assert Occupied(blocks[1..], pos) ==> Occupied(blocks, pos) by {
        if Occupied(blocks[1..], pos) {
          var i :| 0 <= i < |blocks[1..]| && blocks[1..][i].pos == pos;
          assert blocks[i + 1].pos == pos;
        }
      }
      assert Occupied(blocks, pos) ==> Occupied(blocks[1..], pos) by {
        if Occupied(blocks, pos) {
          var i :| 0 <= i < |blocks| && blocks[i].pos == pos;
          assert i != 0;
          assert blocks[1..][i - 1].pos == pos;
        }
      }
      rest
  }

  /** The colour `addBlock` stores: the explicit one, else the current one, else a random one. */
  function ChooseColor(explicit: Option<Color>, current: Option<Color>, random: Color): (c: Color)
    ensures explicit.Some? ==> c == explicit.value
    ensures explicit.None? && current.Some? ==> c == current.value
    ensures explicit.None? && current.None? ==> c == random
  {
    if explicit.Some? then explicit.value
    else if current.Some? then current.value
    else random
  }

  /** `addBlock(position, color)`. `random` stands for what `getRandomColor` would return. */
  function AddBlock(m: Manager, pos: Pos, color: Option<Color>, random: Color): (r: Manager)
    ensures Occupied(m.blocks, pos) ==> r == m
    ensures !Occupied(m.blocks, pos) ==>
      && |r.blocks| == |m.blocks| + 1
      && r.blocks[..|m.blocks|] == m.blocks
      && r.blocks[|m.blocks|].pos == pos
      && r.blocks[|m.blocks|].id == m.counter
      && !r.blocks[|m.blocks|].selected
      && r.blocks[|m.blocks|].shown == r.blocks[|m.blocks|].color
      && r.counter == m.counter + 1
    ensures color.Some? && !Occupied(m.blocks, pos) ==> r.blocks[|m.blocks|].color == color.value
    ensures color.None? && m.color.Some? && !Occupied(m.blocks, pos) ==>
      r.blocks[|m.blocks|].color == m.color.value
    ensures color.None? && m.color.None? && !Occupied(m.blocks, pos) ==>
      r.blocks[|m.blocks|].color == random
    ensures r.selectedBlock == m.selectedBlock && r.color == m.color && r.selectColor == m.selectColor
  {
    if PositionTaken(m.blocks, pos) then m
    else
      var b := NewBlock(m.counter, pos, ChooseColor(color, m.color, random));
      m.(blocks := m.blocks + [b], counter := m.counter + 1)
  }

  lemma AddBlockKeepsValid(m: Manager, pos: Pos, color: Option<Color>, random: Color)
    requires Valid(m)
    ensures Valid(AddBlock(m, pos, color, random))
  {
    var r := AddBlock(m, pos, color, random);
    if !Occupied(m.blocks, pos) {
      var n := |m.blocks|;
      assert r.blocks[n].id == m.counter;
      forall i | 0 <= i < n ensures r.blocks[i] == m.blocks[i] {
        assert r.blocks[..n][i] == m.blocks[i];
      }
      forall i | 0 <= i < n ensures r.blocks[i].pos != pos {
        assert m.blocks[i].pos != pos;
      }
      if m.selectedBlock.Some? {
        var i :| 0 <= i < n && m.blocks[i].id == m.selectedBlock.value;
        assert r.blocks[i].id == r.selectedBlock.value;
      }
    }
  }

  /** `setColor(color)`: sets the current colour and recolours the block `selected_block` names. */
  function SetColor(m: Manager, c: Option<Color>): (r: Manager)
    ensures r.color == c && r.selectColor == SelectColorFor(c)
    ensures r.selectedBlock == m.selectedBlock && r.counter == m.counter
    ensures |r.blocks| == |m.blocks|
    ensures forall i :: 0 <= i < |m.blocks| ==>
      && r.blocks[i].id == m.blocks[i].id && r.blocks[i].pos == m.blocks[i].pos
      && r.blocks[i].color == m.blocks[i].color && r.blocks[i].selected == m.blocks[i].selected
    ensures forall i :: 0 <= i < |m.blocks| ==>
      r.blocks[i].shown == if m.selectedBlock == Some(m.blocks[i].id) then SelectColorFor(c)
                           else m.blocks[i].shown
  {
    var sc := SelectColorFor(c);
    var bs := seq(|m.blocks|, i requires 0 <= i < |m.blocks| =>
      if m.selectedBlock == Some(m.blocks[i].id) then UpdateColor(m.blocks[i], sc) else m.blocks[i]);
    m.(color := c, selectColor := sc, blocks := bs)
  }

  lemma SetColorKeepsValid(m: Manager, c: Option<Color>)
    requires Valid(m)
    ensures Valid(SetColor(m, c))
  {
    var r := SetColor(m, c);
    if m.selectedBlock.Some? {
      var i :| 0 <= i < |m.blocks| && m.blocks[i].id == m.selectedBlock.value;
      assert r.blocks[i].id == r.selectedBlock.value;
    }
  }

  /** `clearAll`: removes every block and forgets the selected one. */
  function ClearAll(m: Manager): (r: Manager)
    ensures |r.blocks| == 0 && r.selectedBlock.None?
    ensures r.color == m.color && r.selectColor == m.selectColor && r.counter == m.counter
    ensures Valid(r)
  {
    m.(blocks := [], selectedBlock := None)
  }

  /** `deselectAllBlocks`: clears every flag but keeps `selected_block`, as `deselectAllBlocks` in mapmanager.py does. */
  function DeselectAllBlocks(m: Manager): (r: Manager)
    ensures |r.blocks| == |m.blocks|
    ensures forall i :: 0 <= i < |r.blocks| ==> !r.blocks[i].selected
    ensures forall i :: 0 <= i < |m.blocks| ==>
      r.blocks[i].id == m.blocks[i].id && r.blocks[i].pos == m.blocks[i].pos
      && r.blocks[i].color == m.blocks[i].color
    ensures forall i :: 0 <= i < |m.blocks| && !m.blocks[i].selected ==> r.blocks[i] == m.blocks[i]
    ensures forall i :: 0 <= i < |m.blocks| && m.blocks[i].selected ==> r.blocks[i].shown == m.blocks[i].color
    ensures r.selectedBlock == m.selectedBlock && r.color == m.color && r.counter == m.counter
    ensures r.selectColor == m.selectColor
    ensures Valid(m) ==> Valid(r)
  {
    var bs := seq(|m.blocks|, i requires 0 <= i < |m.blocks| => Deselect(m.blocks[i]));
    var r := m.(blocks := bs);
    assert Valid(m) ==> Valid(r) by {
      if Valid(m) && m.selectedBlock.Some? {
        var i :| 0 <= i < |m.blocks| && m.blocks[i].id == m.selectedBlock.value;
        assert r.blocks[i].id == r.selectedBlock.value;
      }
    }
    r
  }

  /** Deselecting twice is deselecting once. */
  lemma DeselectAllBlocksIdempotent(m: Manager)
    ensures DeselectAllBlocks(DeselectAllBlocks(m)) == DeselectAllBlocks(m)
  {
    var r := DeselectAllBlocks(m);
    assert DeselectAllBlocks(r).blocks == r.blocks;
  }

  /** Since deselecting keeps `selected_block`, a later `setColor` still paints the select
      colour on the block it names, although that block is no longer flagged. */
  lemma SetColorAfterDeselect(m: Manager, c: Option<Color>)
    requires Valid(m) && m.selectedBlock.Some?
    ensures var r := SetColor(DeselectAllBlocks(m), c);
      exists i :: 0 <= i < |r.blocks| && r.blocks[i].id == m.selectedBlock.value
        && !r.blocks[i].selected && r.blocks[i].shown == SelectColorFor(c)
  {
    var d := DeselectAllBlocks(m);
    var r := SetColor(d, c);
    var i :| 0 <= i < |m.blocks| && m.blocks[i].id == m.selectedBlock.value;
    assert d.blocks[i].id == m.selectedBlock.value;
    assert r.blocks[i].id == m.selectedBlock.value && !r.blocks[i].selected;
  }

  /** The index of the last block whose key is `key` (the one `selected_block` ends on). */
  function LastWithKey(blocks: seq<Block>, key: string): (r: Option<nat>)
    ensures r.None? <==> forall i :: 0 <= i < |blocks| ==> Key(blocks[i]) != key
    ensures r.Some? ==> r.value < |blocks| && Key(blocks[r.value]) == key
    ensures r.Some? ==> forall i :: r.value < i < |blocks| ==> Key(blocks[i]) != key
  {
    if |blocks| == 0 then None
    else if Key(blocks[|blocks| - 1]) == key then Some(|blocks| - 1)
    else LastWithKey(blocks[..|blocks| - 1], key)
  }

  /** `selectBlock(key)`: flags exactly the blocks with that key, unflags the rest, and
      returns the node (here, the block itself) of the last match. */
  function SelectBlock(m: Manager, key: string): (r: (Manager, Option<Block>))
    ensures |r.0.blocks| == |m.blocks|
    ensures forall i :: 0 <= i < |m.blocks| ==> (r.0.blocks[i].selected <==> Key(m.blocks[i]) == key)
    ensures forall i :: 0 <= i < |m.blocks| ==>
      r.0.blocks[i].id == m.blocks[i].id && r.0.blocks[i].pos == m.blocks[i].pos
      && r.0.blocks[i].color == m.blocks[i].color
    ensures forall i :: 0 <= i < |m.blocks| && Key(m.blocks[i]) == key && !m.blocks[i].selected ==>
      r.0.blocks[i].shown == m.selectColor
    ensures forall i :: 0 <= i < |m.blocks| && Key(m.blocks[i]) == key && m.blocks[i].selected ==>
      r.0.blocks[i] == m.blocks[i]
    ensures forall i :: 0 <= i < |m.blocks| && Key(m.blocks[i]) != key && !m.blocks[i].selected ==>
      r.0.blocks[i] == m.blocks[i]
    ensures forall i :: 0 <= i < |m.blocks| && Key(m.blocks[i]) != key && m.blocks[i].selected ==>
      r.0.blocks[i].shown == m.blocks[i].color
    ensures r.1.Some? <==> exists i :: 0 <= i < |m.blocks| && Key(m.blocks[i]) == key
    ensures r.1.Some? ==> r.1.value in r.0.blocks && Key(r.1.value) == key && r.1.value.selected
    ensures r.0.selectedBlock == (if r.1.Some? then Some(r.1.value.id) else None)
    ensures r.0.color == m.color && r.0.selectColor == m.selectColor && r.0.counter == m.counter
  {
    var bs := seq(|m.blocks|, i requires 0 <= i < |m.blocks| =>
      if Key(m.blocks[i]) == key then SetSelected(m.blocks[i], true, m.selectColor)
      else Deselect(m.blocks[i]));
    match LastWithKey(m.blocks, key)
    case None => (m.(blocks := bs, selectedBlock := None), None)
    case Some(i) => (m.(blocks := bs, selectedBlock := Some(bs[i].id)), Some(bs[i]))
  }

  /** With unique keys, selecting leaves at most one block flagged, and the manager valid. */
  lemma SelectBlockKeepsValid(m: Manager, key: string)
    requires Valid(m)
    ensures Valid(SelectBlock(m, key).0)
    ensures AtMostOneSelected(SelectBlock(m, key).0.blocks)
  {
    var r := SelectBlock(m, key);
    var last := LastWithKey(m.blocks, key);
    if last.Some? {
      var l := last.value;
      assert r.1.value == r.0.blocks[l];
      forall i | 0 <= i < |m.blocks| && r.0.blocks[i].selected
        ensures r.0.blocks[i].id == m.blocks[l].id
      {
        Keys.DecimalStringInjective(m.blocks[i].id, m.blocks[l].id);
      }
    }
    ValidAtMostOneSelected(r.0);
  }

  /** In a valid map a key names one block. */
  lemma KeyNamesOneBlock(m: Manager, i: nat)
    requires Valid(m) && i < |m.blocks|
    ensures forall j :: 0 <= j < |m.blocks| ==> (Key(m.blocks[j]) == Key(m.blocks[i]) <==> j == i)
  {
    forall j | 0 <= j < |m.blocks| && j != i ensures Key(m.blocks[j]) != Key(m.blocks[i]) {
      KeysDistinct(m.blocks[i], m.blocks[j]);
    }
  }

  /** Selecting by the key of a block in a valid map selects that block and no other. */
  lemma SelectExisting(m: Manager, i: nat)
    requires Valid(m) && i < |m.blocks|
    ensures var sel := SelectBlock(m, Key(m.blocks[i]));
      && sel.1.Some? && sel.1.value.id == m.blocks[i].id && sel.1.value.pos == m.blocks[i].pos
      && sel.0.selectedBlock == Some(m.blocks[i].id)
      && forall j :: 0 <= j < |sel.0.blocks| ==> (sel.0.blocks[j].selected <==> j == i)
  {
    KeyNamesOneBlock(m, i);
    var sel := SelectBlock(m, Key(m.blocks[i]));
    assert forall j :: 0 <= j < |sel.0.blocks| ==> (sel.0.blocks[j].selected <==> j == i);
    var k :| 0 <= k < |sel.0.blocks| && sel.0.blocks[k] == sel.1.value;
    assert sel.0.blocks[k].selected;
  }

  /** The index of the first block with the selected flag. */
  function FirstSelected(blocks: seq<Block>): (r: Option<nat>)
    ensures r.None? <==> forall i :: 0 <= i < |blocks| ==> !blocks[i].selected
    ensures r.Some? ==> r.value < |blocks| && blocks[r.value].selected
    ensures r.Some? ==> forall i :: 0 <= i < r.value ==> !blocks[i].selected
  {
    if |blocks| == 0 then None
    else if blocks[0].selected then Some(0)
    else match FirstSelected(blocks[1..])
      case None => None
      case Some(i) => Some(i + 1)
  }

  /** `deleteSelectedBlock`: when a block is selected, forgets it and removes the first
      flagged block, if any; the remaining blocks keep their order. */
  function DeleteSelectedBlock(m: Manager): (r: Manager)
    ensures m.selectedBlock.None? ==> r == m
    ensures m.selectedBlock.Some? ==> r.selectedBlock.None?
    ensures m.selectedBlock.Some? && FirstSelected(m.blocks).None? ==> r.blocks == m.blocks
    ensures m.selectedBlock.Some? && FirstSelected(m.blocks).Some? ==>
      var i := FirstSelected(m.blocks).value;
      && |r.blocks| == |m.blocks| - 1
      && r.blocks == m.blocks[..i] + m.blocks[i + 1..]
    ensures |m.blocks| - 1 <= |r.blocks| <= |m.blocks|
    ensures r.color == m.color && r.selectColor == m.selectColor && r.counter == m.counter
  {
    if m.selectedBlock.None? then m
    else
      match FirstSelected(m.blocks)
      case None => m.(selectedBlock := None)
      case Some(i) => m.(selectedBlock := None, blocks := m.blocks[..i] + m.blocks[i + 1..])
  }

  /** Removing one block keeps positions and ids distinct. */
  lemma RemoveKeepsDistinct(blocks: seq<Block>, k: nat, rest: seq<Block>)
    requires k < |blocks| && PositionsDistinct(blocks) && IdsDistinct(blocks)
    requires rest == blocks[..k] + blocks[k + 1..]
    ensures PositionsDistinct(rest) && IdsDistinct(rest)
    ensures forall i :: 0 <= i < k ==> rest[i] == blocks[i]
    ensures forall i :: k <= i < |rest| ==> rest[i] == blocks[i + 1]
  {
  }

  /** Deleting keeps the manager valid and, under the invariant, leaves no block flagged. */
  lemma DeleteSelectedBlockKeepsValid(m: Manager)
    requires Valid(m)
    ensures Valid(DeleteSelectedBlock(m))
    ensures m.selectedBlock.Some? ==> forall i :: 0 <= i < |DeleteSelectedBlock(m).blocks| ==>
      !DeleteSelectedBlock(m).blocks[i].selected
  {
    var r := DeleteSelectedBlock(m);
    if m.selectedBlock.Some? {
      ValidAtMostOneSelected(m);
      match FirstSelected(m.blocks)
      case None =>
      case Some(k) =>
        RemoveKeepsDistinct(m.blocks, k, r.blocks);
        forall i | 0 <= i < |r.blocks| ensures !r.blocks[i].selected && r.blocks[i].id < r.counter {
          if i >= k {
            assert !(m.blocks[k].selected && m.blocks[i + 1].selected);
          }
        }
    }
  }
}

=== FILE: types.dfy ===
/** Value types shared by every part of the block-map model. */
module Types {

  /** A value that may be missing: `None` wherever a Python attribute or argument holds `None`. */
  datatype Option<+T> = None | Some(value: T)

  /** A block position. The engine stores float points; the model uses integer triples. */
  datatype Pos = Pos(x: int, y: int, z: int)

  /** Component-wise sum, as in `selected_position + normal`: a non-zero normal always
      leads away from the block it was measured on. */
  function Offset(p: Pos, v: Pos): (r: Pos)
    ensures r == p <==> v == Pos(0, 0, 0)
  {
    Pos(p.x + v.x, p.y + v.y, p.z + v.z)
  }

  /** An RGBA colour. Components are exact reals; float rounding is not modelled. */
  datatype Color = Rgba(r: real, g: real, b: real, a: real)

  /** Opaque white, the colour of the basic map and of a default-constructed block. */
  const White: Color := Rgba(1.0, 1.0, 1.0, 1.0)
}
